=== FILE: README.md ===
# Astro photo planner — a Dafny model of the planning core

The astro-photo planner scores every forecast hour of an observation plan
(a location, a target, a date range, a minimum target altitude, a maximum
cloud cover and an "avoid the moon" switch). It keeps the hours that meet
the plan's thresholds, glues consecutive good hours into observation
windows, and saves those windows. This project models that pipeline in Dafny:

- `models.dfy` (`Models`): the records. These are location, target, plan,
  cached forecast row and hour, and window. It also holds `Option` and `Result`.
- `numeric.dfy` (`Numeric`): the Python numeric built-ins the core relies on,
  over exact reals:
  - `max`/`min` and clamping;
  - `sum(xs) / len(xs)`;
  - `round` (half to even);
  - `int()` of a float (truncation toward zero).
- `scoring.dfy` (`Scoring`): `_compute_score`, the per-hour score in [0, 100]
  and the astronomical-darkness flag.
- `windows.dfy` (`Windows`): `_merge_to_windows`.
  - `MergeToWindows` follows the source's loop, with the source's own
    accumulators.
  - `Runs` and `WindowOf` are an independent reference: the sorted hours are
    partitioned into maximal runs of consecutive hours, and each run is
    aggregated on its own.
  - `MergeMatchesRuns` proves the two agree on every input. Every window
    property is then proved from the reference.
- `open_meteo.dfy` (`OpenMeteo`): `fetch_and_cache_forecast`:
  - the inclusive day count and the 14-day cap;
  - the timezone parameter;
  - truncation of the answer to its shortest array;
  - normalisation of values;
  - the upsert keyed by (location, hour);
  - the sorted read-back of the whole range.
- `planning.dfy` (`Planning`): `run_planning`. It scores the series, filters
  the good hours and replaces the plan's windows.
- `forms.dfy` (`Forms`): the form checks:
  - latitude and longitude;
  - RA/Dec for deep-sky targets;
  - the plan's date order and threshold ranges, checked in a fixed order.

Conventions:

- Time is counted in whole hours. A calendar date is a day number; day `d`
  covers hours `24 * d` to `24 * d + 23`.
- The weather provider is a function from the request to its parsed answer;
  `None` stands for a failed HTTP call.
- The ephemeris is a function from (location, target, hour) to the sun, moon
  and target geometry.
- The store is the forecast cache, a `map` keyed by (location, hour), plus the
  saved windows of every plan. Being a map, the cache holds at most one row
  per key, which is the uniqueness the database enforces.

The provider's timestamps are local to the requested timezone, and the source
labels them as UTC without shifting them. The model keeps that behaviour: the
hour number in the answer is the hour number cached.

The read-back returns the hours the cache holds, not one hour for every hour
of the range. When the provider leaves an hour out and the cache has no
earlier row for it, the result skips that hour.

## Model

| member | source | states |
|---|---|---|
| Numeric.Max | planner/services/planning.py:98 | The result is at least both arguments and is one of them. |
| Numeric.Min | planner/services/planning.py:49 | The result is at most both arguments and is one of them. |
| Numeric.Clamp | planner/services/planning.py:61 | The clamped value lies in [lo, hi]. It is the input when the input is already inside, and the nearer bound otherwise. |
| Numeric.ClampInt | planner/services/open_meteo.py:76 | The same clamping on integers. |
| Numeric.MeanBetweenElements | planner/services/planning.py:106 | A mean lies between the smallest and the largest element of its list. |
| Numeric.RoundHalfEven | planner/services/planning.py:107 | Python's `round`: the result is the floor or the floor plus one, within 0.5 of the input. Fractions below one half round down and fractions above round up; ties go to the even neighbour. |
| Numeric.RoundWithin | planner/services/planning.py:107 | Rounding a value that lies between two integers stays between them. |
| Numeric.RoundHalfEvenExamples | planner/services/planning.py:107 | 2.5 rounds to 2, 3.5 to 4, 2.4 to 2 and 2.6 to 3. |
| Numeric.TruncToInt | planner/services/open_meteo.py:68-70 | Python's `int()` of a float truncates toward zero: the result is at most one unit closer to zero than the input. |
| Scoring.PrecipitationPenalty | planner/services/planning.py:36-38 | The penalty is 15 exactly when there is any precipitation, and 0 otherwise. |
| Scoring.DarknessAdjustment | planner/services/planning.py:40-45 | +10 exactly when the sun is strictly below -18 degrees; -5 otherwise, including at exactly -18. |
| Scoring.AltitudeAdjustment | planner/services/planning.py:47-52 | Strictly above the minimum, the bonus is the smaller of 20 and 0.7 times the height above the minimum, so it is positive and at most 20. At or below the minimum it is -30. |
| Scoring.MoonPenalty | planner/services/planning.py:54-58 | The penalty is zero unless the plan avoids the moon, and zero with the moon at or below the horizon. With the plan avoiding the moon and the moon above the horizon, it is exactly 40 × illumination × (altitude / 90). For non-negative illumination it is non-negative, and it is at most 40 times the illumination while the moon is at most 90 degrees up. |
| Scoring.RawScore | planner/services/planning.py:31-58 | With cloud cover in [0, 100], illumination in [0, 1] and the moon at most 90 degrees up, the unclamped score lies in [-70, 130], a wider range than the clamp's [0, 100]. |
| Scoring.MoonPenaltyGrowsWithAltitude | planner/services/planning.py:55-58 | For non-negative illumination, a higher moon never gives a smaller penalty. |
| Scoring.ScoreNonIncreasingInMoonAltitude | planner/services/planning.py:54-58 | With everything else fixed and non-negative illumination, a higher moon never raises the score. |
| Scoring.ScoreNonIncreasingInMoonIllumination | planner/services/planning.py:54-58 | With everything else fixed, a brighter moon never raises the score. |
| Scoring.LowRawScoreClampsToZero | planner/services/planning.py:31-61 | Full cloud, rain, daylight and a target at the minimum altitude give a raw score of -30, which the clamp raises to 0. |
| Scoring.ComputeScore | planner/services/planning.py:22-70 | The score is in [0, 100] for every input. The dark flag holds exactly when the sun is strictly below -18 degrees. The timestamp, cloud cover, moon illumination and target altitude are echoed unchanged. |
| Scoring.ScoreNonIncreasingInCloud | planner/services/planning.py:33-34 | With everything else fixed, more cloud never raises the score. |
| Scoring.ScoreNonIncreasingInPrecipitation | planner/services/planning.py:36-38 | With everything else fixed, more precipitation never raises the score. |
| Scoring.AtMinimumAltitudeScoresAsBelow | planner/services/planning.py:48-52 | A target exactly at the minimum altitude scores as one below it. One degree higher, the raw score is strictly greater. |
| Scoring.AvoidingMoonOnlyLowers | planner/services/planning.py:55-58 | Avoiding the moon never raises a score. With the moon below the horizon it changes nothing. |
| Scoring.ClearDarkHourScoresFull | planner/services/planning.py:31-61 | An hour with 10% cloud and no rain, sun at -20 degrees, target 30 degrees above the minimum and no moon scores 100 and is dark. |
| Windows.InsertByTime | planner/services/planning.py:80 | Inserting into a time-sorted list keeps it sorted and adds exactly the one hour. |
| Windows.SortByTime | planner/services/planning.py:80 | The sort returns a time-sorted permutation of its input. |
| Windows.SortKeepsIncreasing | planner/services/planning.py:80 | Sorting hours already in strictly increasing order returns them unchanged. |
| Windows.SortStrict | planner/services/planning.py:80 | Sorting hours with distinct timestamps gives strictly increasing timestamps. |
| Windows.MaxAlt | planner/services/planning.py:98 | The running maximum is at least every hour's target altitude and equals one of them. |
| Windows.AnyDark | planner/services/planning.py:99 | The running darkness flag holds exactly when some hour of the run is dark. |
| Windows.Runs | planner/services/planning.py:91-119 | The reference partition has non-empty runs. It is empty exactly when the input is, and it starts with the first hour. |
| Windows.MergeToWindows | planner/services/planning.py:73-134 | No good hours give no windows. A single hour at `t` gives exactly one window `[t, t+1)` carrying that hour's values. |
| Windows.MergeSortedMatchesRuns | planner/services/planning.py:91-132 | From any open run, the loop emits the windows of the reference partition of the remaining hours. |
| Windows.MergeMatchesRuns | planner/services/planning.py:73-134 | On every input, the merge equals the windows of the maximal consecutive runs of the time-sorted good hours. |
| Windows.RunsFlatten | planner/services/planning.py:91-119 | Concatenating the runs gives back the sorted hours: no hour is lost, duplicated or reordered. |
| Windows.RunsContiguous | planner/services/planning.py:93-99 | Within a run, each hour is exactly one hour after the previous one. |
| Windows.RunsMaximal | planner/services/planning.py:100-119 | Consecutive runs are not one hour apart, so no run could be extended into the next. |
| Windows.RunsSeparated | planner/services/planning.py:91-119 | For strictly increasing input, every later run starts more than one hour after an earlier run ends. |
| Windows.ContiguousWindowSpan | planner/services/planning.py:101-105 | A run's window starts at its first hour and ends `|run|` hours later. It covers exactly the run's hours. |
| Windows.WindowScoreBetween | planner/services/planning.py:106 | A window's score is the mean of its run's scores and lies between two of them. |
| Windows.WindowCloudBetween | planner/services/planning.py:107 | A window's cloud cover is the rounded mean of its run's cloud covers and lies between two of them. |
| Windows.WindowMoonBetween | planner/services/planning.py:108 | A window's moon illumination is the mean of its run's and lies between two of them. |
| Windows.WindowOfSpan | planner/services/planning.py:105 | A window ends one hour after the last hour of its run. |
| Windows.MergeWindowsOrdered | planner/services/planning.py:80-134 | For distinct timestamps, every window has start < end. Windows come out in time order, and each ends strictly before the next starts. |
| Windows.MergeWindowsCover | planner/services/planning.py:91-134 | For distinct timestamps, every good hour lies in exactly one window. |
| Windows.MergeWindowsHoldOnlyGoodHours | planner/services/planning.py:91-134 | Every hour a window spans is the timestamp of some good hour: windows never bridge a gap. |
| Windows.MergeWindowsMaximal | planner/services/planning.py:93-119 | No good hour sits at a window's end or right before its start. So the end is one past the window's last hour, and windows are maximal. |
| Windows.MergeWindowRun | planner/services/planning.py:91-132 | Each window is the aggregate of a run made of exactly the good hours it spans, one hour after another. |
| Windows.MergeWindowScore | planner/services/planning.py:95-106 | A window's score lies between the scores of two good hours it spans. |
| Windows.MergeWindowCloudCover | planner/services/planning.py:96-107 | A window's average cloud cover lies between the cloud covers of two good hours it spans. |
| Windows.MergeWindowMoon | planner/services/planning.py:97-108 | A window's moon illumination lies between that of two good hours it spans. |
| Windows.MergeWindowMaxAltitude | planner/services/planning.py:98-109 | A window's maximum target altitude is at least that of every good hour it spans, and equals one of them. |
| Windows.MergeWindowDark | planner/services/planning.py:99-110 | A window is dark exactly when one of the good hours it spans is dark. |
| Windows.MergeOfIncreasing | planner/services/planning.py:80-91 | On hours already in time order, the merge is the loop started from the first hour over the rest. |
| Windows.MergeCloseBeforeLast | planner/services/planning.py:100-132 | An open run followed by an hour that does not continue it closes into its window, followed by that hour's own window. |
| Windows.MergeGapExample | planner/services/planning.py:91-132 | Hours at t, t+1 and t+3 give exactly the windows [t, t+2) and [t+3, t+4). |
| OpenMeteo.DateRangeDays | planner/services/open_meteo.py:22-23 | For a range that is not reversed by more than a day, the count is the number of days from the first to the last, both included. It is zero or less exactly when the first day is after the last. |
| OpenMeteo.DaysOf | planner/services/open_meteo.py:22-23 | The days of a range are exactly those from the first to the last, in increasing order. |
| OpenMeteo.DateRangeDaysCounts | planner/services/open_meteo.py:22-23 | The day count equals the number of days from the first to the last, both ends included. |
| OpenMeteo.DateRangeDaysExamples | planner/services/open_meteo.py:32-34 | One day counts as 1. A 14-day range is within the cap, and a 15-day range exceeds it. |
| OpenMeteo.TrimStart | planner/services/open_meteo.py:36 | The result is a suffix of the input, all dropped characters are whitespace, and it does not start with whitespace. |
| OpenMeteo.TrimEnd | planner/services/open_meteo.py:36 | The result is a prefix of the input, all dropped characters are whitespace, and it does not end with whitespace. |
| OpenMeteo.Strip | planner/services/open_meteo.py:36 | The stripped name neither starts nor ends with whitespace. It is empty exactly when the input is all whitespace. |
| OpenMeteo.StripIsSlice | planner/services/open_meteo.py:36 | The stripped name is one contiguous slice of the stored name, and everything cut off before and after it is whitespace. |
| OpenMeteo.TimezoneParam | planner/services/open_meteo.py:36-38 | The parameter is "auto" when the stored timezone is empty or only whitespace. Otherwise it is the non-empty stripped name. |
| OpenMeteo.TimezoneParamExamples | planner/services/open_meteo.py:36-38 | An empty timezone and a timezone of blanks and a tab both give "auto". |
| OpenMeteo.Min4 | planner/services/open_meteo.py:59 | The shortest length is at most each of the four lengths and equals one of them. |
| OpenMeteo.NormalizeRow | planner/services/open_meteo.py:68-79 | Stored cloud cover is in [0, 100] and stored visibility is at least 0. A missing value becomes 0, and the source tag is "open-meteo". An in-range cloud cover or a non-negative visibility is truncated to the integer at or below it. A cloud cover of 100 or more is stored as 100, and a negative cloud cover or visibility is stored as 0. |
| OpenMeteo.NormalizeRows | planner/services/open_meteo.py:59-70 | As many rows as the shortest of the four arrays, in answer order, row `i` built from entry `i` of each array. |
| OpenMeteo.UpsertAll | planner/services/open_meteo.py:61-81 | The upsert loop never removes a row. Every new key belongs to the location, and rows of other locations keep their values. |
| OpenMeteo.UpsertOverlay | planner/services/open_meteo.py:72-81 | Upserting an answer is overlaying the rows it writes on the cache. |
| OpenMeteo.WrittenKeys | planner/services/open_meteo.py:72-81 | The written keys are exactly (location, hour) for the hours of the answer. |
| OpenMeteo.WrittenLastWins | planner/services/open_meteo.py:72-81 | When an hour appears more than once in one answer, its last row is the one written. |
| OpenMeteo.WrittenRowsNormalized | planner/services/open_meteo.py:72-81 | Every written row is one of the answer's normalised rows. |
| OpenMeteo.UpsertIdempotent | planner/services/open_meteo.py:72-81 | Applying the same answer twice gives the same cache as applying it once. |
| OpenMeteo.UpsertEffect | planner/services/open_meteo.py:72-81 | After the upsert, the keys are the old keys plus the answer's. Every key not in the answer keeps its row, other locations included. Each answer hour holds its last row. |
| OpenMeteo.ReadRange | planner/services/open_meteo.py:84-89 | The read-back is strictly increasing in time. It holds only hours of the location within the range, each equal to its cached row. |
| OpenMeteo.ReadRangeComplete | planner/services/open_meteo.py:84-89 | Every cached hour of the location within the range is in the read-back. |
| OpenMeteo.RangeStart | planner/services/open_meteo.py:84 | The range starts at hour 0 of the first day. |
| OpenMeteo.RangeEnd | planner/services/open_meteo.py:85 | The range ends at hour 23 of the last day. |
| OpenMeteo.RangeHoursAreRangeDays | planner/services/open_meteo.py:84-89 | An hour lies in the read-back range exactly when its day lies between the first and the last requested day. |
| OpenMeteo.FetchAndCache | planner/services/open_meteo.py:26-89 | The call fails with "range too long" exactly when the range exceeds 14 days. It fails with a provider error exactly when the range is allowed and the provider fails. A failure leaves the cache unchanged. A success returns strictly increasing hours of the location within the range, each as cached. |
| OpenMeteo.TooLongRangeAsksNothing | planner/services/open_meteo.py:32-34 | A range over 14 days gives the same outcome whatever the provider would answer, and writes nothing. |
| OpenMeteo.OnlyTheRequestMatters | planner/services/open_meteo.py:40-51 | Two providers that answer the one request for the range alike give the same outcome. |
| OpenMeteo.FourteenDaysAccepted | planner/services/open_meteo.py:32-34 | Exactly 14 days is accepted: with an answer from the provider, the call succeeds. |
| OpenMeteo.ReversedRangeReadsNothing | planner/services/open_meteo.py:32-34 | A range whose first day is after its last passes the cap. With an answer from the provider, it returns no hours. |
| OpenMeteo.FetchEffectOnCache | planner/services/open_meteo.py:72-81 | The call never removes a row and never touches another location's rows. A cache whose rows all have valid cloud cover and visibility stays that way. |
| OpenMeteo.UpsertAnswer | planner/services/open_meteo.py:61-81 | After upserting one answer, the location's hours that the answer does not mention keep their rows, and no hour of the location is added that is neither cached nor answered. Each answered hour holds the normalised row of its last occurrence in the answer. |
| OpenMeteo.FetchUpdatesLocation | planner/services/open_meteo.py:61-81 | The same holds for the cache after a successful call: unmentioned hours of the location are unchanged, no other hour is added, and each answered hour holds its last normalised row. |
| OpenMeteo.FetchReturnsWholeRange | planner/services/open_meteo.py:84-89 | A success returns every hour of the location in the range that the cache holds after the call. |
| OpenMeteo.FetchReturnsEarlierRows | planner/services/open_meteo.py:84-89 | Hours of the location in the range that were cached before the call are returned too, even when the answer leaves them out. |
| OpenMeteo.FetchReturnsAnsweredHours | planner/services/open_meteo.py:61-89 | Every hour of the answer that lies in the range is returned, even when the cache started empty. |
| OpenMeteo.RefetchKeepsCache | planner/services/open_meteo.py:72-81 | Fetching the same range again with the same answer leaves the cache unchanged. |
| Planning.ScoreSeries | planner/services/planning.py:150-154 | The series has one entry per forecast hour, in forecast order. Entry `i` is the scorer's result for forecast hour `i` under the ephemeris at that hour. So it echoes the hour's timestamp and cloud cover, has a score in [0, 100], and is dark exactly when the sun is below -18 degrees. |
| Planning.GoodHours | planner/services/planning.py:157-162 | An hour is kept exactly when it is in the series and meets the plan's cloud, altitude and score thresholds. |
| Planning.GoodHoursKeepOrder | planner/services/planning.py:157-162 | Filtering keeps the series' order: a strictly time-ordered series gives strictly time-ordered good hours. |
| Planning.RunPlanning | planner/services/planning.py:137-170 | A failed fetch leaves the store unchanged and reports the fetch's error. A success stores the fetched cache and returns the scored series of the fetched forecast, hour by hour. It sets the plan's windows and leaves every other plan's windows as they were. |
| Planning.RunPlanningSavesMerge | planner/services/planning.py:164-168 | After a success, the plan's windows are the merge of the good hours of the returned series, and that series is strictly increasing in time. |
| Planning.GoodWindowBounds | planner/services/planning.py:157-166 | Every window merged from good hours scores in [60, 100]. Its average cloud cover is within the plan's maximum, and its maximum target altitude is at least the plan's minimum. |
| Planning.RunPlanningWindowBounds | planner/services/planning.py:157-168 | Every window a successful run saves meets those bounds. |
| Planning.RunPlanningWindowLayout | planner/services/planning.py:164-168 | Saved windows are non-empty, in time order and separated by a gap. Every good hour of the series lies in exactly one window, and every hour a window spans is a good hour of the series. |
| Planning.FailedRunChangesNothing | planner/services/planning.py:137-147 | With a too-long range or a failing provider, the run fails and the store stays as it was. |
| Forms.CleanLatitude | planner/forms.py:16-20 | A latitude is accepted exactly when it is in [-90, 90], and is returned unchanged. |
| Forms.CleanLongitude | planner/forms.py:22-26 | A longitude is accepted exactly when it is in [-180, 180], and is returned unchanged. |
| Forms.CoordinateBoundsInclusive | planner/forms.py:16-26 | The bounds themselves are accepted; half a degree beyond is rejected. |
| Forms.CleanTarget | planner/forms.py:42-54 | A target is rejected exactly when it is a deep-sky object missing RA or Dec. |
| Forms.NonDsoTargetsAccepted | planner/forms.py:48-52 | Every other target kind, and a missing kind, is accepted with or without coordinates. |
| Forms.DateCheck | planner/forms.py:91-92 | The date check passes exactly when a date is missing or the first date is not after the last. When it fails, it reports reversed dates. |
| Forms.AltitudeCheck | planner/forms.py:94-97 | The altitude check passes exactly when the minimum altitude is missing or in [0, 90]. When it fails, it reports an out-of-range altitude. |
| Forms.CloudCheck | planner/forms.py:99-102 | The cloud check passes exactly when the maximum cloud cover is missing or in [0, 100]. When it fails, it reports an out-of-range cloud cover. |
| Forms.FirstFailure | planner/forms.py:91-102 | The reference cascade accepts exactly when no check fails. Otherwise it reports a failing check with no failure before it. |
| Forms.CleanSessionRequest | planner/forms.py:84-104 | A plan is accepted exactly when the dates are in order and the minimum altitude is in [0, 90]. The maximum cloud cover must be in [0, 100]. A missing field skips its check. |
| Forms.SessionRequestFirstFailure | planner/forms.py:91-102 | The plan's verdict is the first failure among the date, altitude and cloud checks, in that order. |
| Forms.SessionRequestExamples | planner/forms.py:91-102 | Equal dates are accepted and a missing field is skipped. A reversed range is reported even when both thresholds are out of range, and the altitude error comes before the cloud error. |

## Left out

- The sky geometry in `planner/services/astro_calc.py` comes from an ephemeris library. It is a function parameter here, and moon illumination is not assumed to lie in [0, 1].
- Some provider and request handling is not modelled:
  - the HTTP request itself, `raise_for_status` and the 20-second timeout;
  - JSON decoding;
  - parsing of ISO-8601 dates and times.
  
  The provider's parsed answer is the input, and a failed call is `None`.
- The database is a pure store. Not modelled: Django ORM calls, `transaction.atomic`, and the delete-then-bulk-create of windows. A failed run leaves the store as it was, which is what the rollback guarantees.
- Sub-hour timestamps are not modelled. Every time is a whole hour, so the range end 23:59:59.999999 becomes the last hour of the day.
- Rounding of stored values to the database's decimal places is not modelled. This covers precipitation, latitude and longitude, and the window's score (2 places), moon illumination (3 places) and maximum altitude. Neither are the column width limits.
- Floating point is modelled as exact reals: no NaN, no infinities, no rounding error in the score arithmetic.
- Windows.SortByTime: stability of the sort is not stated. With distinct timestamps, which the cache's (location, hour) uniqueness guarantees, it cannot matter.
- Windows.MergeSorted: its own contract only says the loop emits at least one window. What it computes is stated by `MergeSortedMatchesRuns` and `MergeMatchesRuns`.
- Scoring.CloudPenalty: no contract of its own; its effect is stated by `ScoreNonIncreasingInCloud`.
- Planning.IsGood: the filter condition of planning.py:159-161, kept as a plain predicate. It is the specification that `GoodHours`, `GoodWindowBounds` and `RunPlanningWindowLayout` state their results against.
- OpenMeteo.RequestFor: builds the query of open_meteo.py:36-47 field by field and has no contract of its own. `OnlyTheRequestMatters` states that the provider is consulted only through this request, and `TimezoneParam` states its timezone.
- Windows.StartRun: opening a run at planning.py:83-89 and after a gap at 113-119 has no contract of its own. Its result is stated through `SummarizeOne`, `MergeSortedMatchesRuns` and `MergeMatchesRuns`.
- Windows.ExtendRun: extending the open run at planning.py:93-99 has no contract of its own. Its result is stated through `ExtendSummarize`, `MergeSortedMatchesRuns` and `MergeMatchesRuns`.
- Numeric.Mean: the window averages of planning.py:106 and 108 have no contract of their own. Their bounds are stated by `MeanBetweenElements` and `MeanWithin`, and by `WindowScoreBetween` and `WindowMoonBetween` for windows.
- Numeric.MeanInt: the cloud-cover average of planning.py:107 has no contract of its own. It is the mean of the integers taken as reals, and its bounds are stated by `WindowCloudBetween`.
- OpenMeteo.IsSpace: the set of characters Python's `str.isspace` accepts, used by `str.strip` at open_meteo.py:36. It is a plain predicate; its role is stated by `TrimStart`, `TrimEnd`, `Strip` and `StripIsSlice`.
- Windows.CloseRun: the aggregation step of planning.py:101-111 has no contract of its own. Its results are stated through the reference `WindowOf`, which closes a run summary, by `WindowOfSpan`, `WindowScoreBetween`, `WindowCloudBetween`, `WindowMoonBetween`, `MaxAlt` and `AnyDark`.
- Field-level validation done before the form checks (types, `PositiveSmallIntegerField`) is not modelled. The checks receive an integer, a real or `None`.
- Forms.CleanTarget: a target kind that failed field validation arrives as `None` and is treated like a non-DSO kind, as in the source.
- The views, URL routing, admin registration, templates and the theme script are not part of this model, and neither are the `HourForecast` record (unused by the core) or the model field declarations beyond the records above.

=== FILE: forms.dfy ===
/**
  The input checks of the planner's forms: coordinates of a location, the
  coordinates a deep-sky target needs, and the dates and thresholds of an
  observation plan. A field that failed its own parsing arrives as `None`
  and its check is skipped; the plan's checks run in a fixed order and the
  first one that fails is the single error reported.
 */
module Forms {
  import opened Models

  datatype FormError =
    | LatitudeOutOfRange
    | LongitudeOutOfRange
    | MissingCoordinates
    | DatesReversed
    | AltitudeOutOfRange
    | CloudCoverOutOfRange

  /** The outcome of a form-wide check: accepted, or the one error raised. */
  datatype Verdict = Accepted | Rejected(error: FormError)

  /** `LocationForm.clean_latitude`: degrees in [-90, 90], both ends allowed. */
  function CleanLatitude(latitude: real): (r: Result<real, FormError>)
    ensures r.Ok? <==> -90.0 <= latitude <= 90.0
    ensures r.Ok? ==> r.value == latitude
    ensures r.Err? ==> r.error == LatitudeOutOfRange
  {
    if latitude < -90.0 || latitude > 90.0 then Err(LatitudeOutOfRange) else Ok(latitude)
  }

  /** `LocationForm.clean_longitude`: degrees in [-180, 180], both ends allowed. */
  function CleanLongitude(longitude: real): (r: Result<real, FormError>)
    ensures r.Ok? <==> -180.0 <= longitude <= 180.0
    ensures r.Ok? ==> r.value == longitude
    ensures r.Err? ==> r.error == LongitudeOutOfRange
  {
    if longitude < -180.0 || longitude > 180.0 then Err(LongitudeOutOfRange) else Ok(longitude)
  }

  /** The poles and the antimeridian are accepted; a step beyond is not. */
  lemma CoordinateBoundsInclusive()
    ensures CleanLatitude(90.0).Ok? && CleanLatitude(-90.0).Ok?
    ensures CleanLatitude(90.5).Err? && CleanLatitude(-90.5).Err?
    ensures CleanLongitude(180.0).Ok? && CleanLongitude(-180.0).Ok?
    ensures CleanLongitude(180.5).Err? && CleanLongitude(-180.5).Err?
  {
  }

  /** `TargetForm.clean`: a deep-sky object needs both right ascension and declination. */
  function CleanTarget(targetType: Option<TargetType>, rightAscension: Option<real>, declination: Option<real>): (v: Verdict)
    ensures v.Rejected? <==> targetType == Some(DSO) && (rightAscension.None? || declination.None?)
    ensures v.Rejected? ==> v.error == MissingCoordinates
  {
    if targetType == Some(DSO) && (rightAscension.None? || declination.None?) then Rejected(MissingCoordinates)
    else Accepted
  }

  /** Targets of the other kinds are accepted whether or not their coordinates are given. */
  lemma NonDsoTargetsAccepted(t: TargetType, rightAscension: Option<real>, declination: Option<real>)
    requires t != DSO
    ensures CleanTarget(Some(t), rightAscension, declination) == Accepted
    ensures CleanTarget(None, rightAscension, declination) == Accepted
  {
  }

  /** The three checks of a plan, each `None` when it passes or its field is missing. */
  function DateCheck(dateFrom: Option<int>, dateTo: Option<int>): (c: Option<FormError>)
    ensures c.None? <==> dateFrom.None? || dateTo.None? || dateFrom.value <= dateTo.value
    ensures c.Some? ==> c.value == DatesReversed
  {
    if dateFrom.Some? && dateTo.Some? && dateFrom.value > dateTo.value then Some(DatesReversed) else None
  }

  function AltitudeCheck(minAltitude: Option<int>): (c: Option<FormError>)
    ensures c.None? <==> minAltitude.None? || 0 <= minAltitude.value <= 90
    ensures c.Some? ==> c.value == AltitudeOutOfRange
  {
    if minAltitude.Some? && (minAltitude.value < 0 || minAltitude.value > 90) then Some(AltitudeOutOfRange) else None
  }

  function CloudCheck(maxCloudCover: Option<int>): (c: Option<FormError>)
    ensures c.None? <==> maxCloudCover.None? || 0 <= maxCloudCover.value <= 100
    ensures c.Some? ==> c.value == CloudCoverOutOfRange
  {
    if maxCloudCover.Some? && (maxCloudCover.value < 0 || maxCloudCover.value > 100) then Some(CloudCoverOutOfRange) else None
  }

  /** The first failure of a list of checks, in list order. */
  function FirstFailure(checks: seq<Option<FormError>>): (v: Verdict)
    ensures v.Accepted? <==> forall i :: 0 <= i < |checks| ==> checks[i].None?
    ensures v.Rejected? ==> exists i :: 0 <= i < |checks| && checks[i] == Some(v.error)
                                && forall j :: 0 <= j < i ==> checks[j].None?
  {
    if |checks| == 0 then Accepted
    else if checks[0].Some? then Rejected(checks[0].value)
    else
      var v := FirstFailure(checks[1..]);
      assert v.Rejected? ==> exists i :: 1 <= i < |checks| && checks[i] == Some(v.error)
                              && forall j :: 0 <= j < i ==> checks[j].None? by {
        if v.Rejected? {
          var i :| 0 <= i < |checks[1..]| && checks[1..][i] == Some(v.error)
                   && forall j :: 0 <= j < i ==> checks[1..][j].None?;
          assert checks[i + 1] == Some(v.error);
          assert forall j :: 1 <= j < i + 1 ==> checks[j] == checks[1..][j - 1];
        }
      }
      v
  }

  /** `SessionRequestForm.clean`: date order, then the altitude range, then the cloud range. */
  function CleanSessionRequest(dateFrom: Option<int>, dateTo: Option<int>,
                               minAltitude: Option<int>, maxCloudCover: Option<int>): (v: Verdict)
    ensures v.Accepted? <==>
              && (dateFrom.Some? && dateTo.Some? ==> dateFrom.value <= dateTo.value)
              && (minAltitude.Some? ==> 0 <= minAltitude.value <= 90)
              && (maxCloudCover.Some? ==> 0 <= maxCloudCover.value <= 100)
  {
    if dateFrom.Some? && dateTo.Some? && dateFrom.value > dateTo.value then
      Rejected(DatesReversed)
    else if minAltitude.Some? && (minAltitude.value < 0 || minAltitude.value > 90) then
      Rejected(AltitudeOutOfRange)
    else if maxCloudCover.Some? && (maxCloudCover.value < 0 || maxCloudCover.value > 100) then
      Rejected(CloudCoverOutOfRange)
    else
      Accepted
  }

  /** The plan's verdict is the first failure among the date, altitude and cloud checks, in that order. */
  lemma SessionRequestFirstFailure(dateFrom: Option<int>, dateTo: Option<int>,
                                   minAltitude: Option<int>, maxCloudCover: Option<int>)
    ensures CleanSessionRequest(dateFrom, dateTo, minAltitude, maxCloudCover)
            == FirstFailure([DateCheck(dateFrom, dateTo), AltitudeCheck(minAltitude), CloudCheck(maxCloudCover)])
  {
    var checks := [DateCheck(dateFrom, dateTo), AltitudeCheck(minAltitude), CloudCheck(maxCloudCover)];
    var cloud := [CloudCheck(maxCloudCover)];
    var altitude := [AltitudeCheck(minAltitude)] + cloud;
    assert checks == [DateCheck(dateFrom, dateTo)] + altitude;
    assert cloud[1..] == [];
    assert FirstFailure(cloud) == if cloud[0].Some? then Rejected(cloud[0].value) else Accepted;
    assert altitude[1..] == cloud;
    assert checks[1..] == altitude;
  }

  /**
    Equal dates are accepted; a missing field skips its check; a reversed date
    range is reported even when the thresholds are also out of range.
   */
  lemma SessionRequestExamples(d: int)
    ensures CleanSessionRequest(Some(d), Some(d), Some(0), Some(100)) == Accepted
    ensures CleanSessionRequest(None, Some(d), None, None) == Accepted
    ensures CleanSessionRequest(Some(d + 1), Some(d), Some(91), Some(101)) == Rejected(DatesReversed)
    ensures CleanSessionRequest(Some(d), Some(d + 1), Some(91), Some(101)) == Rejected(AltitudeOutOfRange)
    ensures CleanSessionRequest(Some(d), Some(d + 1), Some(90), Some(-1)) == Rejected(CloudCoverOutOfRange)
  {
  }
}

=== FILE: models.dfy ===
/**
  The records of the astro-photo planner that the planning pipeline reads and
  writes: locations, targets, observation plans (session requests), cached
  forecast hours and observation windows.

  Time is measured in whole hours since a fixed UTC epoch and calendar dates
  are day numbers; day `d` covers the hours `24 * d` to `24 * d + 23`.
 */
module Models {

  /** A value that may be absent (Python's `None`). */
  datatype Option<+T> = None | Some(value: T) {
    function GetOr(default: T): T {
      match this
      case Some(v) => v
      case None => default
    }
  }

  /** Either a value or the error the source raises instead. */
  datatype Result<+T, +E> = Ok(value: T) | Err(error: E)

  type LocationId = int
  type PlanId = int

  /** Location: coordinates in degrees and an IANA timezone name (possibly blank). */
  datatype Location = Location(id: LocationId, latitude: real, longitude: real, timezone: string)

  datatype TargetType = Moon | Planet | DSO | MilkyWay

  /** Target: right ascension and declination (degrees) are optional fields. */
  datatype Target = Target(name: string, targetType: TargetType,
                           rightAscension: Option<real>, declination: Option<real>)

  /** SessionRequest: one observation plan and its thresholds. */
  datatype Plan = Plan(id: PlanId, location: Location, target: Target,
                       dateFrom: int, dateTo: int,
                       minTargetAltitude: int, maxCloudCover: int, avoidMoon: bool)

  /** The stored columns of one cached forecast hour. */
  datatype ForecastRow = ForecastRow(cloudCover: int, precipitation: real, visibility: int, source: string)

  /** The forecast cache, keyed by (location, UTC hour): at most one row per key. */
  type Cache = map<(LocationId, int), ForecastRow>

  /** One cached forecast hour as read back from the cache. */
  datatype ForecastHour = ForecastHour(location: LocationId, timestamp: int, cloudCover: int,
                                       precipitation: real, visibility: int, source: string)

  /** AstroWindow: an aggregate over a run of consecutive good hours; `end` is exclusive. */
  datatype Window = Window(start: int, end: int, score: real, avgCloudCover: int,
                           moonIllumination: real, maxTargetAltitude: real,
                           isAstronomicalDark: bool)
}

=== FILE: numeric.dfy ===
/**
  Python's numeric built-ins as the planner uses them, over exact reals:
  `max`/`min` of two numbers, clamping, `sum(xs) / len(xs)`, `round` (half to
  even) and `int()` of a float (truncation toward zero).
 */
module Numeric {

  /** Python `max(a, b)`: keeps `a` unless `b` is strictly greater. */
  function Max(a: real, b: real): (r: real)
    ensures a <= r && b <= r
    ensures r == a || r == b
  {
    if b > a then b else a
  }

  /** Python `min(a, b)`: keeps `a` unless `b` is strictly smaller. */
  function Min(a: real, b: real): (r: real)
    ensures r <= a && r <= b
    ensures r == a || r == b
  {
    if b < a then b else a
  }

  /** `max(lo, min(hi, x))`. */
  function Clamp(lo: real, hi: real, x: real): (r: real)
    requires lo <= hi
    ensures lo <= r <= hi
    ensures lo <= x <= hi ==> r == x
    ensures x < lo ==> r == lo
    ensures hi < x ==> r == hi
  {
    Max(lo, Min(hi, x))
  }

  lemma ClampMonotone(lo: real, hi: real, x: real, y: real)
    requires lo <= hi && x <= y
    ensures Clamp(lo, hi, x) <= Clamp(lo, hi, y)
  {
  }

  /** `max(lo, min(hi, x))` on integers. */
  function ClampInt(lo: int, hi: int, x: int): (r: int)
    requires lo <= hi
    ensures lo <= r <= hi
    ensures lo <= x <= hi ==> r == x
    ensures x < lo ==> r == lo
    ensures hi < x ==> r == hi
  {
    if x < lo then lo else if hi < x then hi else x
  }

  function Sum(xs: seq<real>): real
  {
    if |xs| == 0 then 0.0 else xs[0] + Sum(xs[1..])
  }

  /** Python `sum(xs) / len(xs)` for a non-empty list. */
  function Mean(xs: seq<real>): real
    requires |xs| > 0
  {
    Sum(xs) / |xs| as real
  }

  function ToReals(xs: seq<int>): (rs: seq<real>)
    ensures |rs| == |xs|
    ensures forall i :: 0 <= i < |xs| ==> rs[i] == xs[i] as real
  {
    seq(|xs|, i requires 0 <= i < |xs| => xs[i] as real)
  }

  /** `sum(xs) / len(xs)` for a non-empty list of integers (true division). */
  function MeanInt(xs: seq<int>): real
    requires |xs| > 0
  {
    Mean(ToReals(xs))
  }

  lemma MeanOfOne(x: real)
    ensures Mean([x]) == x
  {
    assert [x][1..] == [];
    assert Sum([x]) == x + Sum([]);
  }

  lemma MeanIntOfOne(c: int)
    ensures MeanInt([c]) == c as real
    ensures RoundHalfEven(MeanInt([c])) == c
  {
    assert ToReals([c]) == [c as real];
    MeanOfOne(c as real);
  }

  lemma {:induction false} SumBounds(xs: seq<real>, lo: real, hi: real)
    requires forall i :: 0 <= i < |xs| ==> lo <= xs[i] <= hi
    ensures lo * |xs| as real <= Sum(xs) <= hi * |xs| as real
    decreases |xs|
  {
    if |xs| > 0 {
      SumBounds(xs[1..], lo, hi);
    }
  }

  /** Index of a smallest element. */
  function ArgMin(xs: seq<real>): (k: nat)
    requires |xs| > 0
    ensures k < |xs|
    ensures forall i :: 0 <= i < |xs| ==> xs[k] <= xs[i]
  {
    if |xs| == 1 then 0
    else
      var k := 1 + ArgMin(xs[1..]);
      if xs[0] <= xs[k] then 0 else k
  }

  /** Index of a largest element. */
  function ArgMax(xs: seq<real>): (k: nat)
    requires |xs| > 0
    ensures k < |xs|
    ensures forall i :: 0 <= i < |xs| ==> xs[i] <= xs[k]
  {
    if |xs| == 1 then 0
    else
      var k := 1 + ArgMax(xs[1..]);
      if xs[0] >= xs[k] then 0 else k
  }

  /** The mean of a list lies between two of its elements: its minimum and its maximum. */
  lemma MeanBetweenElements(xs: seq<real>)
    requires |xs| > 0
    ensures xs[ArgMin(xs)] <= Mean(xs) <= xs[ArgMax(xs)]
  {
    MeanWithin(xs, xs[ArgMin(xs)], xs[ArgMax(xs)]);
  }

  /** A mean of values in `[lo, hi]` is itself in `[lo, hi]`. */
  lemma MeanWithin(xs: seq<real>, lo: real, hi: real)
    requires |xs| > 0
    requires forall i :: 0 <= i < |xs| ==> lo <= xs[i] <= hi
    ensures lo <= Mean(xs) <= hi
  {
    SumBounds(xs, lo, hi);
    DivideBounds(Sum(xs), |xs| as real, lo, hi);
  }

  lemma DivideBounds(s: real, n: real, lo: real, hi: real)
    requires n > 0.0
    requires lo * n <= s <= hi * n
    ensures lo <= s / n <= hi
  {
    assert s / n * n == s;
  }

  /**
    Python's `round(x)`: the nearest integer, ties going to the even neighbour.
   */
  function RoundHalfEven(x: real): (r: int)
    ensures r == x.Floor || r == x.Floor + 1
    ensures -0.5 <= r as real - x <= 0.5
    ensures x - x.Floor as real == 0.5 ==> r % 2 == 0
    ensures x - x.Floor as real < 0.5 ==> r == x.Floor
    ensures x - x.Floor as real > 0.5 ==> r == x.Floor + 1
  {
    var f := x.Floor;
    var frac := x - f as real;
    if frac < 0.5 then f
    else if frac > 0.5 then f + 1
    else if f % 2 == 0 then f
    else f + 1
  }

  /** Rounding a value that lies between two integers stays between them. */
  lemma RoundWithin(x: real, lo: int, hi: int)
    requires lo as real <= x <= hi as real
    ensures lo <= RoundHalfEven(x) <= hi
  {
  }

  lemma RoundHalfEvenExamples()
    ensures RoundHalfEven(2.5) == 2
    ensures RoundHalfEven(3.5) == 4
    ensures RoundHalfEven(2.4) == 2
    ensures RoundHalfEven(2.6) == 3
  {
    assert (2.5).Floor == 2;
    assert (3.5).Floor == 3;
    assert (2.4).Floor == 2;
    assert (2.6).Floor == 2;
  }

  /** Python's `int(x)` for a float: truncation toward zero. */
  function TruncToInt(x: real): (r: int)
    ensures 0.0 <= x ==> 0 <= r && r as real <= x < r as real + 1.0
    ensures x < 0.0 ==> r <= 0 && r as real - 1.0 < x <= r as real
  {
    if x >= 0.0 then x.Floor else -((-x).Floor)
  }
}

=== FILE: open_meteo.dfy ===
/**
  The forecast cache of the planner: the requested date range is checked
  against the 14-day cap, the hourly forecast is asked of the weather
  provider (Open-Meteo), every returned hour is normalised and upserted into
  the cache under (location, hour), and the cached hours of the whole range
  are read back in time order.

  The provider is a function from the request to its parsed answer (`None`
  when the HTTP call fails); hours are whole UTC hours, dates are day
  numbers, and day `d` covers the hours `24 * d` to `24 * d + 23`.
 */
module OpenMeteo {
  import opened Models
  import opened Numeric

  /** The longest accepted range, in days, both ends included. */
  const MaxRangeDays: int := 14

  /** The hourly variables asked of the provider. */
  const HourlyVariables: string := "cloud_cover,precipitation,visibility"

  /** The provenance stamped on every cached row. */
  const Source: string := "open-meteo"

  // ---------------------------------------------------------------------------
  // Day count
  // ---------------------------------------------------------------------------

  /**
    `_date_range_days`: the number of days of the range, both ends included.
    A reversed range counts zero or fewer days.
   */
  function DateRangeDays(dateFrom: int, dateTo: int): (n: int)
    ensures dateFrom <= dateTo + 1 ==> n == |DaysOf(dateFrom, dateTo)|
    ensures n <= 0 <==> dateFrom > dateTo
  {
    var n := (dateTo - dateFrom) + 1;
    if dateFrom <= dateTo + 1 then DateRangeDaysCounts(dateFrom, dateTo); n else n
  }

  /** The days of the range, in order. */
  function DaysOf(dateFrom: int, dateTo: int): (ds: seq<int>)
    ensures forall d :: d in ds <==> dateFrom <= d <= dateTo
    ensures forall i, j :: 0 <= i < j < |ds| ==> ds[i] < ds[j]
    decreases dateTo - dateFrom + 1
  {
    if dateFrom > dateTo then []
    else
      var rest := DaysOf(dateFrom + 1, dateTo);
      assert forall j :: 0 <= j < |rest| ==> dateFrom < rest[j] by {
        forall j | 0 <= j < |rest| ensures dateFrom < rest[j] {
          assert rest[j] in rest;
        }
      }
      [dateFrom] + rest
  }

  /** The day count is inclusive: it counts exactly the days from the first to the last. */
  lemma {:induction false} DateRangeDaysCounts(dateFrom: int, dateTo: int)
    requires dateFrom <= dateTo + 1
    ensures |DaysOf(dateFrom, dateTo)| == (dateTo - dateFrom) + 1
    decreases dateTo - dateFrom + 1
  {
    if dateFrom <= dateTo {
      DateRangeDaysCounts(dateFrom + 1, dateTo);
    }
  }

  /** One day counts as one; the cap admits a 14-day range and rejects a 15-day one. */
  lemma DateRangeDaysExamples(d: int)
    ensures DateRangeDays(d, d) == 1
    ensures DateRangeDays(d, d + 13) == MaxRangeDays
    ensures DateRangeDays(d, d + 14) > MaxRangeDays
  {
  }

  // ---------------------------------------------------------------------------
  // Timezone parameter
  // ---------------------------------------------------------------------------

  /** Python's `str.isspace` for one character. */
  predicate IsSpace(c: char)
  {
    var n := c as int;
    (9 <= n <= 13) || (28 <= n <= 32) || n == 0x85 || n == 0xA0 || n == 0x1680
    || (0x2000 <= n <= 0x200A) || n == 0x2028 || n == 0x2029 || n == 0x202F
    || n == 0x205F || n == 0x3000
  }

  predicate AllSpace(s: string)
  {
    forall i :: 0 <= i < |s| ==> IsSpace(s[i])
  }

  /** Drops leading whitespace. */
  function TrimStart(s: string): (r: string)
    ensures |r| <= |s| && r == s[|s| - |r|..]
    ensures forall i :: 0 <= i < |s| - |r| ==> IsSpace(s[i])
    ensures |r| > 0 ==> !IsSpace(r[0])
  {
    if |s| > 0 && IsSpace(s[0]) then TrimStart(s[1..]) else s
  }

  /** Drops trailing whitespace. */
  function TrimEnd(s: string): (r: string)
    ensures |r| <= |s| && r == s[..|r|]
    ensures forall i :: |r| <= i < |s| ==> IsSpace(s[i])
    ensures |r| > 0 ==> !IsSpace(r[|r| - 1])
  {
    if |s| > 0 && IsSpace(s[|s| - 1]) then TrimEnd(s[..|s| - 1]) else s
  }

  /** Python's `str.strip()`: whitespace dropped at both ends. */
  function Strip(s: string): (r: string)
    ensures |r| > 0 ==> !IsSpace(r[0]) && !IsSpace(r[|r| - 1])
    ensures |r| == 0 <==> AllSpace(s)
  {
    var t := TrimStart(s);
    var r := TrimEnd(t);
    StripEmptyIffAllSpace(s, t, r);
    r
  }

  lemma StripEmptyIffAllSpace(s: string, t: string, r: string)
    requires t == TrimStart(s) && r == TrimEnd(t)
    ensures |r| > 0 ==> r[0] == t[0]
    ensures |r| == 0 <==> AllSpace(s)
  {
    if |t| > 0 {
      assert s[|s| - |t|] == t[0];
    }
  }

  /** What `Strip` keeps is one contiguous slice of its argument. */
  lemma StripIsSlice(s: string) returns (i: int)
    ensures 0 <= i <= |s| - |Strip(s)|
    ensures Strip(s) == s[i..i + |Strip(s)|]
    ensures AllSpace(s[..i]) && AllSpace(s[i + |Strip(s)|..])
  {
    var t := TrimStart(s);
    var r := TrimEnd(t);
    i := |s| - |t|;
    assert t == s[i..];
    assert r == t[..|r|];
    forall k | 0 <= k < i ensures IsSpace(s[..i][k]) {
      assert s[..i][k] == s[k];
    }
    var tail := s[i + |r|..];
    forall k | 0 <= k < |tail| ensures IsSpace(tail[k]) {
      assert tail[k] == t[|r| + k];
    }
  }

  /** The timezone sent to the provider: the stripped stored name, or "auto" when that is blank. */
  function TimezoneParam(timezone: string): (p: string)
    ensures AllSpace(timezone) ==> p == "auto"
    ensures !AllSpace(timezone) ==> p == Strip(timezone) && |p| > 0
  {
    var name := Strip(timezone);
    if |name| == 0 then "auto" else name
  }

  /** A blank timezone and one that is only whitespace both become "auto". */
  lemma TimezoneParamExamples()
    ensures TimezoneParam("") == "auto"
    ensures TimezoneParam(" \t ") == "auto"
  {
    assert AllSpace(" \t ");
  }

  // ---------------------------------------------------------------------------
  // Request and response
  // ---------------------------------------------------------------------------

  /** The query parameters of the forecast request. */
  datatype Request = Request(latitude: real, longitude: real, hourly: string,
                             startDate: int, endDate: int, timezone: string)

  /**
    The parsed `hourly` block of the answer: hour stamps and the three value
    arrays, whose `null` entries are `None`. A missing array is empty.
   */
  datatype Hourly = Hourly(time: seq<int>, cloudCover: seq<Option<real>>,
                           precipitation: seq<Option<real>>, visibility: seq<Option<real>>)

  /** The weather provider: the parsed answer to a request, or `None` when the call fails. */
  type Provider = Request -> Option<Hourly>

  function RequestFor(loc: Location, dateFrom: int, dateTo: int): Request
  {
    Request(loc.latitude, loc.longitude, HourlyVariables, dateFrom, dateTo, TimezoneParam(loc.timezone))
  }

  /** One row of the answer, ready to upsert. */
  datatype Update = Update(timestamp: int, row: ForecastRow)

  /** The smallest of four lengths. */
  function Min4(a: int, b: int, c: int, d: int): (m: int)
    ensures m <= a && m <= b && m <= c && m <= d
    ensures m == a || m == b || m == c || m == d
  {
    var ab := if b < a then b else a;
    var cd := if d < c then d else c;
    if cd < ab then cd else ab
  }

  /**
    One answer row as stored: a missing value counts as 0, cloud cover is
    truncated to an integer and clamped to [0, 100], visibility is truncated
    and raised to at least 0, precipitation is kept as given.
   */
  function NormalizeRow(cloud: Option<real>, precipitation: Option<real>, visibility: Option<real>): (r: ForecastRow)
    ensures 0 <= r.cloudCover <= 100
    ensures 0 <= r.visibility
    ensures r.source == Source
    ensures cloud.None? ==> r.cloudCover == 0
    ensures visibility.None? ==> r.visibility == 0
    ensures precipitation.None? ==> r.precipitation == 0.0
    ensures precipitation.Some? ==> r.precipitation == precipitation.value
    ensures cloud.Some? && 0.0 <= cloud.value <= 100.0 ==> r.cloudCover as real <= cloud.value < r.cloudCover as real + 1.0
    ensures visibility.Some? && 0.0 <= visibility.value ==> r.visibility as real <= visibility.value < r.visibility as real + 1.0
    ensures cloud.Some? && cloud.value >= 100.0 ==> r.cloudCover == 100
    ensures cloud.Some? && cloud.value < 0.0 ==> r.cloudCover == 0
    ensures visibility.Some? && visibility.value < 0.0 ==> r.visibility == 0
  {
    var c := TruncToInt(cloud.GetOr(0.0));
    var v := TruncToInt(visibility.GetOr(0.0));
    ForecastRow(ClampInt(0, 100, c), precipitation.GetOr(0.0), if v < 0 then 0 else v, Source)
  }

  /** The rows of the answer: as many as the shortest of the four arrays, in answer order. */
  function NormalizeRows(h: Hourly): (us: seq<Update>)
    ensures |us| <= |h.time| && |us| <= |h.cloudCover| && |us| <= |h.precipitation| && |us| <= |h.visibility|
    ensures |us| == |h.time| || |us| == |h.cloudCover| || |us| == |h.precipitation| || |us| == |h.visibility|
    ensures forall i :: 0 <= i < |us| ==>
              us[i].timestamp == h.time[i] &&
              us[i].row == NormalizeRow(h.cloudCover[i], h.precipitation[i], h.visibility[i])
  {
    var n := Min4(|h.time|, |h.cloudCover|, |h.precipitation|, |h.visibility|);
    seq(n, i requires 0 <= i < n => Update(h.time[i], NormalizeRow(h.cloudCover[i], h.precipitation[i], h.visibility[i])))
  }

  // ---------------------------------------------------------------------------
  // Upsert
  // ---------------------------------------------------------------------------

  /** `update_or_create` for each row in turn, keyed by (location, hour). */
  function UpsertAll(c: Cache, loc: LocationId, us: seq<Update>): (r: Cache)
    ensures forall key :: key in c ==> key in r
    ensures forall key :: key in r ==> key in c || key.0 == loc
    ensures forall key :: key in r && key.0 != loc ==> r[key] == c[key]
    decreases |us|
  {
    if |us| == 0 then c
    else UpsertAll(c[(loc, us[0].timestamp) := us[0].row], loc, us[1..])
  }

  /** The rows one answer writes, on their own. */
  function Written(loc: LocationId, us: seq<Update>): Cache
  {
    UpsertAll(map[], loc, us)
  }

  /** Upserting is overlaying the written rows on the cache: the cache's other rows stay. */
  lemma {:induction false} UpsertOverlay(c: Cache, loc: LocationId, us: seq<Update>)
    ensures UpsertAll(c, loc, us) == c + Written(loc, us)
    decreases |us|
  {
    if |us| == 0 {
      assert c + map[] == c;
    } else {
      var k := (loc, us[0].timestamp);
      var rest := us[1..];
      UpsertOverlay(c[k := us[0].row], loc, rest);
      UpsertOverlay(map[k := us[0].row], loc, rest);
      assert map[][k := us[0].row] == map[k := us[0].row];
      assert c + (map[k := us[0].row] + Written(loc, rest)) == c[k := us[0].row] + Written(loc, rest);
    }
  }

  /** The written keys are exactly (location, hour) for the hours of the answer. */
  lemma {:induction false} WrittenKeys(loc: LocationId, us: seq<Update>)
    ensures forall key :: key in Written(loc, us) <==>
              key.0 == loc && exists i :: 0 <= i < |us| && us[i].timestamp == key.1
    decreases |us|
  {
    if |us| > 0 {
      var k := (loc, us[0].timestamp);
      var rest := us[1..];
      WrittenKeys(loc, rest);
      UpsertOverlay(map[k := us[0].row], loc, rest);
      assert map[][k := us[0].row] == map[k := us[0].row];
      forall key ensures key in Written(loc, us) <==>
                key.0 == loc && exists i :: 0 <= i < |us| && us[i].timestamp == key.1
      {
        if key.0 == loc && exists i :: 0 <= i < |us| && us[i].timestamp == key.1 {
          var i :| 0 <= i < |us| && us[i].timestamp == key.1;
          if i > 0 {
            assert rest[i - 1].timestamp == key.1;
          }
        }
        if key in Written(loc, rest) {
          var i :| 0 <= i < |rest| && rest[i].timestamp == key.1;
          assert us[i + 1].timestamp == key.1;
        }
      }
    }
  }

  /** When an hour appears more than once in one answer, its last row wins. */
  lemma {:induction false} WrittenLastWins(loc: LocationId, us: seq<Update>, i: int)
    requires 0 <= i < |us|
    requires forall j :: i < j < |us| ==> us[j].timestamp != us[i].timestamp
    ensures (loc, us[i].timestamp) in Written(loc, us)
    ensures Written(loc, us)[(loc, us[i].timestamp)] == us[i].row
    decreases |us|
  {
    var k := (loc, us[0].timestamp);
    var rest := us[1..];
    UpsertOverlay(map[k := us[0].row], loc, rest);
    assert map[][k := us[0].row] == map[k := us[0].row];
    WrittenKeys(loc, rest);
    if i == 0 {
      assert (loc, us[0].timestamp) !in Written(loc, rest);
    } else {
      WrittenLastWins(loc, rest, i - 1);
    }
  }

  /** Applying the same answer twice gives the cache that applying it once gives. */
  lemma UpsertIdempotent(c: Cache, loc: LocationId, us: seq<Update>)
    ensures UpsertAll(UpsertAll(c, loc, us), loc, us) == UpsertAll(c, loc, us)
  {
    UpsertOverlay(c, loc, us);
    UpsertOverlay(UpsertAll(c, loc, us), loc, us);
    var w := Written(loc, us);
    assert (c + w) + w == c + w;
  }

  /**
    After the upsert, each key of the answer holds its last row; every other
    key, other locations included, keeps what it had, and nothing is removed.
   */
  lemma UpsertEffect(c: Cache, loc: LocationId, us: seq<Update>)
    ensures forall key :: key in UpsertAll(c, loc, us) <==>
              key in c || (key.0 == loc && exists i :: 0 <= i < |us| && us[i].timestamp == key.1)
    ensures forall key :: key in c && (key.0 != loc || forall i :: 0 <= i < |us| ==> us[i].timestamp != key.1) ==>
              UpsertAll(c, loc, us)[key] == c[key]
    ensures forall i :: 0 <= i < |us| && (forall j :: i < j < |us| ==> us[j].timestamp != us[i].timestamp) ==>
              UpsertAll(c, loc, us)[(loc, us[i].timestamp)] == us[i].row
  {
    UpsertOverlay(c, loc, us);
    WrittenKeys(loc, us);
    forall i | 0 <= i < |us| && (forall j :: i < j < |us| ==> us[j].timestamp != us[i].timestamp)
      ensures UpsertAll(c, loc, us)[(loc, us[i].timestamp)] == us[i].row
    {
      WrittenLastWins(loc, us, i);
    }
  }

  // ---------------------------------------------------------------------------
  // Range read-back
  // ---------------------------------------------------------------------------

  predicate IncreasingHours(hs: seq<ForecastHour>)
  {
    forall i, j :: 0 <= i < j < |hs| ==> hs[i].timestamp < hs[j].timestamp
  }

  function HourOf(loc: LocationId, t: int, row: ForecastRow): ForecastHour
  {
    ForecastHour(loc, t, row.cloudCover, row.precipitation, row.visibility, row.source)
  }

  /** The cached hours of one location from hour `lo` to hour `hi`, in time order. */
  function ReadRange(c: Cache, loc: LocationId, lo: int, hi: int): (hs: seq<ForecastHour>)
    ensures IncreasingHours(hs)
    ensures forall i :: 0 <= i < |hs| ==>
              lo <= hs[i].timestamp <= hi && (loc, hs[i].timestamp) in c &&
              hs[i] == HourOf(loc, hs[i].timestamp, c[(loc, hs[i].timestamp)])
    decreases hi - lo + 1
  {
    if lo > hi then []
    else
      var rest := ReadRange(c, loc, lo + 1, hi);
      if (loc, lo) in c then [HourOf(loc, lo, c[(loc, lo)])] + rest else rest
  }

  /** Nothing cached for the location in the range is left out of the read-back. */
  lemma {:induction false} ReadRangeComplete(c: Cache, loc: LocationId, lo: int, hi: int, t: int)
    requires lo <= t <= hi && (loc, t) in c
    ensures exists i :: 0 <= i < |ReadRange(c, loc, lo, hi)| && ReadRange(c, loc, lo, hi)[i].timestamp == t
    decreases hi - lo + 1
  {
    var hs := ReadRange(c, loc, lo, hi);
    var rest := ReadRange(c, loc, lo + 1, hi);
    if t == lo {
      assert hs[0].timestamp == t;
    } else {
      ReadRangeComplete(c, loc, lo + 1, hi, t);
      var i :| 0 <= i < |rest| && rest[i].timestamp == t;
      if (loc, lo) in c {
        assert hs[i + 1].timestamp == t;
      } else {
        assert hs[i].timestamp == t;
      }
    }
  }

  /** The first hour of day `dateFrom`. */
  function RangeStart(dateFrom: int): (h: int)
    ensures h / 24 == dateFrom && h % 24 == 0
  {
    24 * dateFrom
  }

  /** The last hour of day `dateTo` (the range runs to 23:59:59.999999 of that day). */
  function RangeEnd(dateTo: int): (h: int)
    ensures h / 24 == dateTo && h % 24 == 23
  {
    24 * dateTo + 23
  }

  /** An hour lies in the read-back range exactly when its day lies in the requested dates. */
  lemma RangeHoursAreRangeDays(dateFrom: int, dateTo: int, t: int)
    ensures RangeStart(dateFrom) <= t <= RangeEnd(dateTo) <==> dateFrom <= t / 24 <= dateTo
  {
  }

  // ---------------------------------------------------------------------------
  // Fetch and cache
  // ---------------------------------------------------------------------------

  datatype FetchError = RangeTooLong | ProviderError

  /** The cache after the call, and the hours returned or the error raised. */
  datatype CacheResult = CacheResult(cache: Cache, result: Result<seq<ForecastHour>, FetchError>)

  /** Every cached row holds a cloud cover in [0, 100] and a non-negative visibility. */
  predicate WellFormedCache(c: Cache)
  {
    forall key :: key in c ==> 0 <= c[key].cloudCover <= 100 && 0 <= c[key].visibility
  }

  /** `fetch_and_cache_forecast`. */
  function FetchAndCache(loc: Location, dateFrom: int, dateTo: int, cache: Cache, provider: Provider): (o: CacheResult)
    ensures o.result == Err(RangeTooLong) <==> DateRangeDays(dateFrom, dateTo) > MaxRangeDays
    ensures o.result == Err(ProviderError) <==>
              DateRangeDays(dateFrom, dateTo) <= MaxRangeDays && provider(RequestFor(loc, dateFrom, dateTo)).None?
    ensures o.result.Err? ==> o.cache == cache
    ensures o.result.Ok? ==>
              && IncreasingHours(o.result.value)
              && forall i :: 0 <= i < |o.result.value| ==>
                   var h := o.result.value[i];
                   && h.location == loc.id
                   && RangeStart(dateFrom) <= h.timestamp <= RangeEnd(dateTo)
                   && (loc.id, h.timestamp) in o.cache
                   && h == HourOf(loc.id, h.timestamp, o.cache[(loc.id, h.timestamp)])
  {
    if DateRangeDays(dateFrom, dateTo) > MaxRangeDays then
      CacheResult(cache, Err(RangeTooLong))
    else
      match provider(RequestFor(loc, dateFrom, dateTo))
      case None => CacheResult(cache, Err(ProviderError))
      case Some(hourly) =>
        var c := UpsertAll(cache, loc.id, NormalizeRows(hourly));
        CacheResult(c, Ok(ReadRange(c, loc.id, RangeStart(dateFrom), RangeEnd(dateTo))))
  }

  /** A range over 14 days fails before the provider is asked: the outcome does not depend on it. */
  lemma TooLongRangeAsksNothing(loc: Location, dateFrom: int, dateTo: int, cache: Cache, p1: Provider, p2: Provider)
    requires DateRangeDays(dateFrom, dateTo) > MaxRangeDays
    ensures FetchAndCache(loc, dateFrom, dateTo, cache, p1) == FetchAndCache(loc, dateFrom, dateTo, cache, p2)
    ensures FetchAndCache(loc, dateFrom, dateTo, cache, p1).cache == cache
  {
  }

  /** The provider is consulted only through its answer to the one request for the range. */
  lemma OnlyTheRequestMatters(loc: Location, dateFrom: int, dateTo: int, cache: Cache, p1: Provider, p2: Provider)
    requires p1(RequestFor(loc, dateFrom, dateTo)) == p2(RequestFor(loc, dateFrom, dateTo))
    ensures FetchAndCache(loc, dateFrom, dateTo, cache, p1) == FetchAndCache(loc, dateFrom, dateTo, cache, p2)
  {
  }

  /** Exactly 14 days is accepted: the provider's answer is cached and read back. */
  lemma FourteenDaysAccepted(loc: Location, dateFrom: int, cache: Cache, provider: Provider)
    requires provider(RequestFor(loc, dateFrom, dateFrom + 13)).Some?
    ensures FetchAndCache(loc, dateFrom, dateFrom + 13, cache, provider).result.Ok?
  {
  }

  /**
    A successful call writes only rows of the plan's location: rows of other
    locations are untouched, no row is removed, and the rows written hold
    normalised values, so a well-formed cache stays well-formed.
   */
  lemma FetchEffectOnCache(loc: Location, dateFrom: int, dateTo: int, cache: Cache, provider: Provider)
    ensures var o := FetchAndCache(loc, dateFrom, dateTo, cache, provider);
      && (forall key :: key in cache ==> key in o.cache)
      && (forall key :: key in o.cache && key.0 != loc.id ==> key in cache && o.cache[key] == cache[key])
      && (WellFormedCache(cache) ==> WellFormedCache(o.cache))
  {
    var o := FetchAndCache(loc, dateFrom, dateTo, cache, provider);
    if o.result.Ok? {
      var hourly := provider(RequestFor(loc, dateFrom, dateTo)).value;
      var us := NormalizeRows(hourly);
      UpsertOverlay(cache, loc.id, us);
      WrittenKeys(loc.id, us);
      if WellFormedCache(cache) {
        forall key | key in o.cache ensures 0 <= o.cache[key].cloudCover <= 100 && 0 <= o.cache[key].visibility {
          if key in Written(loc.id, us) {
            WrittenRowsNormalized(loc.id, us, key);
          }
        }
      }
    }
  }

  /**
    A successful call leaves the location's hours that the answer does not
    mention as they were, and stores at each answered hour the normalised row
    of that hour's last occurrence in the answer.
   */
  lemma FetchUpdatesLocation(loc: Location, dateFrom: int, dateTo: int, cache: Cache, provider: Provider)
    requires FetchAndCache(loc, dateFrom, dateTo, cache, provider).result.Ok?
    ensures var c := FetchAndCache(loc, dateFrom, dateTo, cache, provider).cache;
      var h := provider(RequestFor(loc, dateFrom, dateTo)).value;
      var n := |NormalizeRows(h)|;
      && (forall t :: (loc.id, t) in cache && (forall i :: 0 <= i < n ==> h.time[i] != t) ==>
            (loc.id, t) in c && c[(loc.id, t)] == cache[(loc.id, t)])
      && (forall t :: (loc.id, t) in c ==> (loc.id, t) in cache || exists i :: 0 <= i < n && h.time[i] == t)
      && (forall i :: 0 <= i < n && (forall j :: i < j < n ==> h.time[j] != h.time[i]) ==>
            (loc.id, h.time[i]) in c
            && c[(loc.id, h.time[i])] == NormalizeRow(h.cloudCover[i], h.precipitation[i], h.visibility[i]))
  {
    UpsertAnswer(cache, loc.id, provider(RequestFor(loc, dateFrom, dateTo)).value);
  }

  /** `UpsertEffect` for the rows of one answer, stated on the answer's arrays. */
  lemma UpsertAnswer(cache: Cache, loc: LocationId, h: Hourly)
    ensures var c := UpsertAll(cache, loc, NormalizeRows(h));
      var n := |NormalizeRows(h)|;
      && (forall t :: (loc, t) in cache && (forall i :: 0 <= i < n ==> h.time[i] != t) ==>
            (loc, t) in c && c[(loc, t)] == cache[(loc, t)])
      && (forall t :: (loc, t) in c ==> (loc, t) in cache || exists i :: 0 <= i < n && h.time[i] == t)
      && (forall i :: 0 <= i < n && (forall j :: i < j < n ==> h.time[j] != h.time[i]) ==>
            (loc, h.time[i]) in c
            && c[(loc, h.time[i])] == NormalizeRow(h.cloudCover[i], h.precipitation[i], h.visibility[i]))
  {
    UpsertEffect(cache, loc, NormalizeRows(h));
  }

  /** Every row an answer writes is one of its normalised rows. */
  lemma {:induction false} WrittenRowsNormalized(loc: LocationId, us: seq<Update>, key: (LocationId, int))
    requires key in Written(loc, us)
    ensures exists i :: 0 <= i < |us| && Written(loc, us)[key] == us[i].row
    decreases |us|
  {
    var k := (loc, us[0].timestamp);
    var rest := us[1..];
    UpsertOverlay(map[k := us[0].row], loc, rest);
    assert map[][k := us[0].row] == map[k := us[0].row];
    if key in Written(loc, rest) {
      WrittenRowsNormalized(loc, rest, key);
      var i :| 0 <= i < |rest| && Written(loc, rest)[key] == rest[i].row;
      assert us[i + 1] == rest[i];
    } else {
      assert Written(loc, us)[key] == us[0].row;
    }
  }

  /**
    The result is every hour of the location in the range that the cache holds
    after the call: hours written by this call and hours cached before it.
   */
  lemma FetchReturnsWholeRange(loc: Location, dateFrom: int, dateTo: int, cache: Cache, provider: Provider, t: int)
    requires FetchAndCache(loc, dateFrom, dateTo, cache, provider).result.Ok?
    requires RangeStart(dateFrom) <= t <= RangeEnd(dateTo)
    requires (loc.id, t) in FetchAndCache(loc, dateFrom, dateTo, cache, provider).cache
    ensures var hs := FetchAndCache(loc, dateFrom, dateTo, cache, provider).result.value;
      exists i :: 0 <= i < |hs| && hs[i].timestamp == t
  {
    var o := FetchAndCache(loc, dateFrom, dateTo, cache, provider);
    ReadRangeComplete(o.cache, loc.id, RangeStart(dateFrom), RangeEnd(dateTo), t);
  }

  /** Hours cached before the call, and not written by it, are returned too. */
  lemma FetchReturnsEarlierRows(loc: Location, dateFrom: int, dateTo: int, cache: Cache, provider: Provider, t: int)
    requires FetchAndCache(loc, dateFrom, dateTo, cache, provider).result.Ok?
    requires RangeStart(dateFrom) <= t <= RangeEnd(dateTo)
    requires (loc.id, t) in cache
    ensures var hs := FetchAndCache(loc, dateFrom, dateTo, cache, provider).result.value;
      exists i :: 0 <= i < |hs| && hs[i].timestamp == t
  {
    FetchEffectOnCache(loc, dateFrom, dateTo, cache, provider);
    FetchReturnsWholeRange(loc, dateFrom, dateTo, cache, provider, t);
  }

  /** Every hour of the answer that falls in the range is returned, even on a first fetch into an empty cache. */
  lemma FetchReturnsAnsweredHours(loc: Location, dateFrom: int, dateTo: int, cache: Cache, provider: Provider, i: int)
    requires FetchAndCache(loc, dateFrom, dateTo, cache, provider).result.Ok?
    requires 0 <= i < |NormalizeRows(provider(RequestFor(loc, dateFrom, dateTo)).value)|
    requires RangeStart(dateFrom) <= provider(RequestFor(loc, dateFrom, dateTo)).value.time[i] <= RangeEnd(dateTo)
    ensures var hs := FetchAndCache(loc, dateFrom, dateTo, cache, provider).result.value;
      exists j :: 0 <= j < |hs| && hs[j].timestamp == provider(RequestFor(loc, dateFrom, dateTo)).value.time[i]
  {
    var h := provider(RequestFor(loc, dateFrom, dateTo)).value;
    var us := NormalizeRows(h);
    UpsertOverlay(cache, loc.id, us);
    WrittenKeys(loc.id, us);
    assert us[i].timestamp == h.time[i];
    assert (loc.id, h.time[i]) in FetchAndCache(loc, dateFrom, dateTo, cache, provider).cache;
    FetchReturnsWholeRange(loc, dateFrom, dateTo, cache, provider, h.time[i]);
  }

  /** Fetching the same range again with the same answer leaves the cache as it is. */
  lemma RefetchKeepsCache(loc: Location, dateFrom: int, dateTo: int, cache: Cache, provider: Provider)
    ensures var once := FetchAndCache(loc, dateFrom, dateTo, cache, provider).cache;
      FetchAndCache(loc, dateFrom, dateTo, once, provider).cache == once
  {
    if DateRangeDays(dateFrom, dateTo) <= MaxRangeDays && provider(RequestFor(loc, dateFrom, dateTo)).Some? {
      UpsertIdempotent(cache, loc.id, NormalizeRows(provider(RequestFor(loc, dateFrom, dateTo)).value));
    }
  }

  /**
    A reversed range (first day after the last) is not too long: the provider
    is still asked and its answer cached, but the read-back range is empty.
   */
  lemma ReversedRangeReadsNothing(loc: Location, dateFrom: int, dateTo: int, cache: Cache, provider: Provider)
    requires dateFrom > dateTo
    requires provider(RequestFor(loc, dateFrom, dateTo)).Some?
    ensures FetchAndCache(loc, dateFrom, dateTo, cache, provider).result == Ok([])
  {
  }
}

=== FILE: planning.dfy ===
/**
  One planning run for an observation plan: fetch and cache the forecast of
  the plan's dates, score every cached hour, keep the good hours (cloud cover
  at most the plan's maximum, target at least at the plan's minimum altitude,
  score at least 60), replace the plan's windows with the merge of the good
  hours, and return the whole per-hour series.

  The store is the cache plus the saved windows of every plan. The ephemeris
  is a function from (location, target, hour) to the sky geometry.
 */
module Planning {
  import opened Models
  import opened Scoring
  import opened Windows
  import opened OpenMeteo

  /** The lowest score a good hour may have. */
  const GoodScore: real := 60.0

  /** The ephemeris: sun, moon and target geometry of a location and target at an hour. */
  type Astro = (Location, Target, int) -> HourAstro

  /** The persistent state a run reads and writes. */
  datatype Store = Store(cache: Cache, windows: map<PlanId, seq<Window>>)

  /** The store after the run, and the per-hour series returned or the error raised. */
  datatype PlanningOutcome = PlanningOutcome(store: Store, result: Result<seq<HourScore>, FetchError>)

  /** The scored series: one entry per forecast hour, in the forecast's order. */
  function ScoreSeries(plan: Plan, forecast: seq<ForecastHour>, astro: Astro): (hs: seq<HourScore>)
    ensures |hs| == |forecast|
    ensures forall i :: 0 <= i < |hs| ==>
              && hs[i].timestamp == forecast[i].timestamp
              && hs[i].cloudCover == forecast[i].cloudCover
              && 0.0 <= hs[i].score <= 100.0
              && (hs[i].isDark <==> astro(plan.location, plan.target, forecast[i].timestamp).sunAltDeg < -18.0)
    ensures forall i :: 0 <= i < |hs| ==>
              hs[i] == ComputeScore(plan, forecast[i], astro(plan.location, plan.target, forecast[i].timestamp))
  {
    var hs := seq(|forecast|, i requires 0 <= i < |forecast| =>
      ComputeScore(plan, forecast[i], astro(plan.location, plan.target, forecast[i].timestamp)));
    assert forall i :: 0 <= i < |hs| ==>
      hs[i] == ComputeScore(plan, forecast[i], astro(plan.location, plan.target, forecast[i].timestamp));
    hs
  }

  /** The plan's thresholds for a good hour; the altitude bound is inclusive here. */
  predicate IsGood(plan: Plan, h: HourScore)
  {
    && h.cloudCover <= plan.maxCloudCover
    && h.targetAlt >= plan.minTargetAltitude as real
    && h.score >= GoodScore
  }

  /** The good hours of a series, in the series' order. */
  function GoodHours(plan: Plan, hs: seq<HourScore>): (good: seq<HourScore>)
    ensures |good| <= |hs|
    ensures forall h :: h in good <==> h in hs && IsGood(plan, h)
  {
    if |hs| == 0 then []
    else
      assert hs == [hs[0]] + hs[1..];
      var rest := GoodHours(plan, hs[1..]);
      if IsGood(plan, hs[0]) then [hs[0]] + rest else rest
  }

  /** Filtering keeps the series' order: a strictly time-ordered series gives strictly time-ordered good hours. */
  lemma {:induction false} GoodHoursKeepOrder(plan: Plan, hs: seq<HourScore>)
    requires StrictlyIncreasing(hs)
    ensures StrictlyIncreasing(GoodHours(plan, hs))
  {
    if |hs| > 0 {
      var tail := hs[1..];
      assert StrictlyIncreasing(tail) by {
        forall i, j | 0 <= i < j < |tail| ensures tail[i].timestamp < tail[j].timestamp {
          assert tail[i] == hs[i + 1] && tail[j] == hs[j + 1];
        }
      }
      GoodHoursKeepOrder(plan, tail);
      var rest := GoodHours(plan, tail);
      forall j | 0 <= j < |rest| ensures hs[0].timestamp < rest[j].timestamp {
        assert rest[j] in tail;
        var i :| 0 <= i < |tail| && tail[i] == rest[j];
        assert tail[i] == hs[i + 1];
      }
      if IsGood(plan, hs[0]) {
        var good := [hs[0]] + rest;
        forall i, j | 0 <= i < j < |good| ensures good[i].timestamp < good[j].timestamp {
          assert good[j] == rest[j - 1];
          if i > 0 {
            assert good[i] == rest[i - 1];
          }
        }
      }
    }
  }

  /** `run_planning`. A failed fetch raises, and the enclosing transaction leaves the store as it was. */
  function RunPlanning(plan: Plan, store: Store, provider: Provider, astro: Astro): (o: PlanningOutcome)
    ensures var fetched := FetchAndCache(plan.location, plan.dateFrom, plan.dateTo, store.cache, provider);
      && (o.result.Err? <==> fetched.result.Err?)
      && (o.result.Err? ==> o.store == store && o.result.error == fetched.result.error)
      && (o.result.Ok? ==>
            && o.store.cache == fetched.cache
            && |o.result.value| == |fetched.result.value|
            && (forall i :: 0 <= i < |o.result.value| ==> o.result.value[i].timestamp == fetched.result.value[i].timestamp))
    ensures o.result.Ok? ==>
              o.result.value == ScoreSeries(plan, FetchAndCache(plan.location, plan.dateFrom, plan.dateTo, store.cache, provider).result.value, astro)
    ensures o.result.Ok? ==>
              && plan.id in o.store.windows
              && forall p :: p != plan.id ==>
                   && (p in o.store.windows <==> p in store.windows)
                   && (p in store.windows ==> o.store.windows[p] == store.windows[p])
  {
    var fetched := FetchAndCache(plan.location, plan.dateFrom, plan.dateTo, store.cache, provider);
    match fetched.result
    case Err(e) => PlanningOutcome(store, Err(e))
    case Ok(forecast) =>
      var series := ScoreSeries(plan, forecast, astro);
      var windows := MergeToWindows(GoodHours(plan, series));
      PlanningOutcome(Store(fetched.cache, store.windows[plan.id := windows]), Ok(series))
  }

  // ---------------------------------------------------------------------------
  // The windows a successful run saves
  // ---------------------------------------------------------------------------

  /**
    After a successful run the plan's windows are the merge of the good hours
    of the returned series, and that series runs strictly forward in time.
   */
  lemma RunPlanningSavesMerge(plan: Plan, store: Store, provider: Provider, astro: Astro)
    requires RunPlanning(plan, store, provider, astro).result.Ok?
    ensures var o := RunPlanning(plan, store, provider, astro);
      && StrictlyIncreasing(o.result.value)
      && o.store.windows[plan.id] == MergeToWindows(GoodHours(plan, o.result.value))
  {
    var fetched := FetchAndCache(plan.location, plan.dateFrom, plan.dateTo, store.cache, provider);
    var series := ScoreSeries(plan, fetched.result.value, astro);
    assert StrictlyIncreasing(series);
  }

  /**
    Every window merged from good hours has a score in [60, 100], an average
    cloud cover within the plan's maximum and a maximum altitude at least the
    plan's minimum.
   */
  lemma GoodWindowBounds(plan: Plan, hs: seq<HourScore>, k: int)
    requires StrictlyIncreasing(hs)
    requires forall i :: 0 <= i < |hs| ==> hs[i].score <= 100.0
    requires 0 <= k < |MergeToWindows(GoodHours(plan, hs))|
    ensures var w := MergeToWindows(GoodHours(plan, hs))[k];
      && GoodScore <= w.score <= 100.0
      && w.avgCloudCover <= plan.maxCloudCover
      && w.maxTargetAltitude >= plan.minTargetAltitude as real
  {
    var good := GoodHours(plan, hs);
    GoodHoursKeepOrder(plan, hs);
    var w := MergeToWindows(good)[k];
    assert GoodScore <= w.score <= 100.0 by {
      MergeWindowScore(good, k);
      var s1, s2 :| s1 in good && s2 in good && Covers(w, s1.timestamp) && Covers(w, s2.timestamp)
                    && s1.score <= w.score <= s2.score;
      assert s2 in hs;
      var i :| 0 <= i < |hs| && hs[i] == s2;
    }
    assert w.avgCloudCover <= plan.maxCloudCover by {
      MergeWindowCloudCover(good, k);
      var c1, c2 :| c1 in good && c2 in good && Covers(w, c1.timestamp) && Covers(w, c2.timestamp)
                    && c1.cloudCover <= w.avgCloudCover <= c2.cloudCover;
    }
    assert w.maxTargetAltitude >= plan.minTargetAltitude as real by {
      MergeWindowMaxAltitude(good, k);
      var h :| h in good && Covers(w, h.timestamp) && h.targetAlt == w.maxTargetAltitude;
    }
  }

  /** Each window a successful run saves meets the plan's thresholds and scores at least 60. */
  lemma RunPlanningWindowBounds(plan: Plan, store: Store, provider: Provider, astro: Astro, k: int)
    requires RunPlanning(plan, store, provider, astro).result.Ok?
    requires 0 <= k < |RunPlanning(plan, store, provider, astro).store.windows[plan.id]|
    ensures var w := RunPlanning(plan, store, provider, astro).store.windows[plan.id][k];
      && GoodScore <= w.score <= 100.0
      && w.avgCloudCover <= plan.maxCloudCover
      && w.maxTargetAltitude >= plan.minTargetAltitude as real
  {
    RunPlanningSavesMerge(plan, store, provider, astro);
    GoodWindowBounds(plan, RunPlanning(plan, store, provider, astro).result.value, k);
  }

  /**
    The windows a successful run saves are in time order, non-empty and
    separated by at least one hour, and every good hour of the returned
    series lies in exactly one of them.
   */
  lemma RunPlanningWindowLayout(plan: Plan, store: Store, provider: Provider, astro: Astro)
    requires RunPlanning(plan, store, provider, astro).result.Ok?
    ensures var o := RunPlanning(plan, store, provider, astro);
      var ws := o.store.windows[plan.id];
      && (forall k :: 0 <= k < |ws| ==> ws[k].start < ws[k].end)
      && (forall k1, k2 :: 0 <= k1 < k2 < |ws| ==> ws[k1].end < ws[k2].start)
      && (forall h :: h in o.result.value && IsGood(plan, h) ==>
            exists k :: 0 <= k < |ws| && Covers(ws[k], h.timestamp))
      && (forall h, k1, k2 ::
            (h in o.result.value && IsGood(plan, h) && 0 <= k1 < |ws| && 0 <= k2 < |ws|
             && Covers(ws[k1], h.timestamp) && Covers(ws[k2], h.timestamp)) ==> k1 == k2)
      && (forall k, t :: 0 <= k < |ws| && Covers(ws[k], t) ==>
            exists h :: h in o.result.value && IsGood(plan, h) && h.timestamp == t)
  {
    RunPlanningSavesMerge(plan, store, provider, astro);
    var o := RunPlanning(plan, store, provider, astro);
    var good := GoodHours(plan, o.result.value);
    GoodHoursKeepOrder(plan, o.result.value);
    MergeWindowsOrdered(good);
    MergeWindowsCover(good);
    MergeWindowsHoldOnlyGoodHours(good);
  }

  /** A failed fetch leaves the cache and every plan's windows as they were. */
  lemma FailedRunChangesNothing(plan: Plan, store: Store, provider: Provider, astro: Astro)
    requires DateRangeDays(plan.dateFrom, plan.dateTo) > MaxRangeDays
             || provider(RequestFor(plan.location, plan.dateFrom, plan.dateTo)).None?
    ensures RunPlanning(plan, store, provider, astro).store == store
    ensures RunPlanning(plan, store, provider, astro).result.Err?
  {
  }
}

=== FILE: scoring.dfy ===
/**
  The hour scorer of the planning service: one cached forecast hour plus the
  sky geometry of that hour give a suitability score in [0, 100] and the
  astronomical-darkness flag.

  The sky geometry (`HourAstro`) comes from an ephemeris library and is taken
  here as plain numbers.
 */
module Scoring {
  import opened Models
  import opened Numeric

  /** Sun, moon and target altitudes in degrees and the moon's illuminated fraction. */
  datatype HourAstro = HourAstro(sunAltDeg: real, moonAltDeg: real, moonIllumination: real, targetAltDeg: real)

  /** The per-hour result: both the merge input and the series shown to the user. */
  datatype HourScore = HourScore(timestamp: int, score: real, cloudCover: int,
                                 moonIllumination: real, targetAlt: real, isDark: bool)

  /** Astronomical night: the sun more than 18 degrees below the horizon. */
  const AstronomicalNight: real := -18.0

  const BaseScore: real := 100.0

  /** 0.8 points per percent of cloud cover. */
  function CloudPenalty(cloud: int): real
  {
    0.8 * cloud as real
  }

  /** A flat 15 points for any precipitation at all. */
  function PrecipitationPenalty(precipitation: real): (p: real)
    ensures p == 0.0 || p == 15.0
    ensures p > 0.0 <==> precipitation > 0.0
  {
    if precipitation > 0.0 then 15.0 else 0.0
  }

  /** +10 in astronomical night, -5 otherwise (twilight or day). */
  function DarknessAdjustment(sunAlt: real): (a: real)
    ensures a == 10.0 <==> sunAlt < AstronomicalNight
    ensures a == -5.0 <==> sunAlt >= AstronomicalNight
  {
    if sunAlt < AstronomicalNight then 10.0 else -5.0
  }

  /**
    A bonus of up to 20 points for a target above the plan's minimum altitude,
    a 30-point penalty for a target at or below it.
   */
  function AltitudeAdjustment(targetAlt: real, minAlt: real): (a: real)
    ensures a <= 20.0
    ensures a > 0.0 <==> targetAlt > minAlt
    ensures targetAlt <= minAlt ==> a == -30.0
    ensures targetAlt > minAlt ==> a <= (targetAlt - minAlt) * 0.7
    ensures targetAlt > minAlt ==> a == 20.0 || a == (targetAlt - minAlt) * 0.7
  {
    if targetAlt > minAlt then Min(20.0, (targetAlt - minAlt) * 0.7) else -30.0
  }

  /**
    Moon penalty, applied only when the plan asks to avoid the moon: grows with
    the moon's altitude (none below the horizon) and its illumination.
   */
  function MoonPenalty(avoidMoon: bool, moonAlt: real, moonIllumination: real): (p: real)
    ensures !avoidMoon ==> p == 0.0
    ensures moonAlt <= 0.0 ==> p == 0.0
    ensures 0.0 <= moonIllumination ==> 0.0 <= p
    ensures 0.0 <= moonIllumination && moonAlt <= 90.0 ==> p <= 40.0 * moonIllumination
    ensures avoidMoon && moonAlt > 0.0 ==> p == 40.0 * moonIllumination * (moonAlt / 90.0)
  {
    if avoidMoon then
      var moonFactor := Max(0.0, moonAlt / 90.0);
      assert moonAlt <= 90.0 ==> moonFactor <= 1.0;
      ScaleBounds(moonIllumination, moonFactor);
      40.0 * moonIllumination * moonFactor
    else 0.0
  }

  lemma ScaleBounds(a: real, f: real)
    requires 0.0 <= f
    ensures 0.0 <= a ==> 0.0 <= a * f
    ensures 0.0 <= a && f <= 1.0 ==> a * f <= a
  {
  }

  /**
    The unclamped score, with the adjustments applied in the source's order.
    For cloud cover in [0, 100], illumination in [0, 1] and the moon at most
    90 degrees up it ranges over [-70, 130], so both ends of the clamp matter.
   */
  function RawScore(plan: Plan, fh: ForecastHour, astro: HourAstro): (r: real)
    ensures 0 <= fh.cloudCover <= 100 && 0.0 <= astro.moonIllumination <= 1.0 && astro.moonAltDeg <= 90.0 ==>
              -70.0 <= r <= 130.0
  {
    BaseScore
    - CloudPenalty(fh.cloudCover)
    - PrecipitationPenalty(fh.precipitation)
    + DarknessAdjustment(astro.sunAltDeg)
    + AltitudeAdjustment(astro.targetAltDeg, plan.minTargetAltitude as real)
    - MoonPenalty(plan.avoidMoon, astro.moonAltDeg, astro.moonIllumination)
  }

  /** `_compute_score`: score one forecast hour against a plan. */
  function ComputeScore(plan: Plan, fh: ForecastHour, astro: HourAstro): (h: HourScore)
    ensures 0.0 <= h.score <= 100.0
    ensures h.isDark <==> astro.sunAltDeg < -18.0
    ensures h.timestamp == fh.timestamp
    ensures h.cloudCover == fh.cloudCover
    ensures h.moonIllumination == astro.moonIllumination
    ensures h.targetAlt == astro.targetAltDeg
  {
    HourScore(
      timestamp := fh.timestamp,
      score := Clamp(0.0, 100.0, RawScore(plan, fh, astro)),
      cloudCover := fh.cloudCover,
      moonIllumination := astro.moonIllumination,
      targetAlt := astro.targetAltDeg,
      isDark := astro.sunAltDeg < AstronomicalNight)
  }

  /** With everything else fixed, more cloud never raises the score. */
  lemma ScoreNonIncreasingInCloud(plan: Plan, fh: ForecastHour, astro: HourAstro, moreCloud: int)
    requires fh.cloudCover <= moreCloud
    ensures ComputeScore(plan, fh.(cloudCover := moreCloud), astro).score
            <= ComputeScore(plan, fh, astro).score
  {
    ClampMonotone(0.0, 100.0, RawScore(plan, fh.(cloudCover := moreCloud), astro), RawScore(plan, fh, astro));
  }

  /** With everything else fixed, more precipitation never raises the score. */
  lemma ScoreNonIncreasingInPrecipitation(plan: Plan, fh: ForecastHour, astro: HourAstro, morePrecipitation: real)
    requires fh.precipitation <= morePrecipitation
    ensures ComputeScore(plan, fh.(precipitation := morePrecipitation), astro).score
            <= ComputeScore(plan, fh, astro).score
  {
    ClampMonotone(0.0, 100.0, RawScore(plan, fh.(precipitation := morePrecipitation), astro), RawScore(plan, fh, astro));
  }

  /** With everything else fixed, a higher moon never raises the score. */
  lemma ScoreNonIncreasingInMoonAltitude(plan: Plan, fh: ForecastHour, astro: HourAstro, higher: real)
    requires 0.0 <= astro.moonIllumination
    requires astro.moonAltDeg <= higher
    ensures ComputeScore(plan, fh, astro.(moonAltDeg := higher)).score <= ComputeScore(plan, fh, astro).score
  {
    MoonPenaltyGrowsWithAltitude(plan.avoidMoon, astro.moonAltDeg, higher, astro.moonIllumination);
    ClampMonotone(0.0, 100.0, RawScore(plan, fh, astro.(moonAltDeg := higher)), RawScore(plan, fh, astro));
  }

  lemma MoonPenaltyGrowsWithAltitude(avoidMoon: bool, alt: real, higher: real, illumination: real)
    requires 0.0 <= illumination && alt <= higher
    ensures MoonPenalty(avoidMoon, alt, illumination) <= MoonPenalty(avoidMoon, higher, illumination)
  {
    if avoidMoon && 0.0 < alt {
      var k := 40.0 * illumination;
      var d := (higher - alt) / 90.0;
      ScaleBounds(d, k);
      assert MoonPenalty(avoidMoon, higher, illumination) - MoonPenalty(avoidMoon, alt, illumination) == d * k;
    }
  }

  /** With everything else fixed, a brighter moon never raises the score. */
  lemma ScoreNonIncreasingInMoonIllumination(plan: Plan, fh: ForecastHour, astro: HourAstro, brighter: real)
    requires astro.moonIllumination <= brighter
    ensures ComputeScore(plan, fh, astro.(moonIllumination := brighter)).score <= ComputeScore(plan, fh, astro).score
  {
    var f := Max(0.0, astro.moonAltDeg / 90.0);
    assert astro.moonIllumination * f <= brighter * f;
    ClampMonotone(0.0, 100.0, RawScore(plan, fh, astro.(moonIllumination := brighter)), RawScore(plan, fh, astro));
  }

  /**
    A cloudy, rainy daylight hour with the target at the minimum altitude has
    a raw score of -30, which the clamp raises to 0.
   */
  lemma LowRawScoreClampsToZero(plan: Plan, fh: ForecastHour, astro: HourAstro)
    requires fh.cloudCover == 100 && fh.precipitation > 0.0
    requires !plan.avoidMoon
    requires astro.sunAltDeg >= -18.0 && astro.targetAltDeg == plan.minTargetAltitude as real
    ensures RawScore(plan, fh, astro) == -30.0
    ensures ComputeScore(plan, fh, astro).score == 0.0
  {
  }

  /**
    A target exactly at the minimum altitude scores the same as one anywhere
    below it: equality takes the penalty branch, not the bonus.
   */
  lemma AtMinimumAltitudeScoresAsBelow(plan: Plan, fh: ForecastHour, astro: HourAstro, lower: real)
    requires astro.targetAltDeg == plan.minTargetAltitude as real
    requires lower <= astro.targetAltDeg
    ensures ComputeScore(plan, fh, astro).score == ComputeScore(plan, fh, astro.(targetAltDeg := lower)).score
    ensures RawScore(plan, fh, astro) < RawScore(plan, fh, astro.(targetAltDeg := astro.targetAltDeg + 1.0))
  {
  }

  /**
    Avoiding the moon can only lower a score, and changes nothing while the
    moon is below the horizon.
   */
  lemma AvoidingMoonOnlyLowers(plan: Plan, fh: ForecastHour, astro: HourAstro)
    requires 0.0 <= astro.moonIllumination
    ensures ComputeScore(plan.(avoidMoon := true), fh, astro).score
            <= ComputeScore(plan.(avoidMoon := false), fh, astro).score
    ensures astro.moonAltDeg <= 0.0 ==>
              ComputeScore(plan.(avoidMoon := true), fh, astro) == ComputeScore(plan.(avoidMoon := false), fh, astro)
  {
    ClampMonotone(0.0, 100.0, RawScore(plan.(avoidMoon := true), fh, astro), RawScore(plan.(avoidMoon := false), fh, astro));
  }

  /** A clear, dry, dark hour with the target well up and no moon scores 100. */
  lemma ClearDarkHourScoresFull(plan: Plan, fh: ForecastHour, astro: HourAstro)
    requires fh.cloudCover == 10 && fh.precipitation == 0.0
    requires plan.minTargetAltitude == 20
    requires astro == HourAstro(-20.0, 10.0, 0.0, 50.0)
    ensures ComputeScore(plan, fh, astro).score == 100.0
    ensures ComputeScore(plan, fh, astro).isDark
  {
  }
}

=== FILE: windows.dfy ===
/**
  The window merger of the planning service: the good hours, sorted by time,
  are grouped into maximal runs of hours exactly one hour apart, and each run
  becomes one observation window with aggregated statistics.

  `MergeToWindows` follows the source's loop: an open run is carried as the
  same accumulators the source keeps (start, end, score/cloud/moon lists,
  running maximum altitude, running darkness flag). `Runs` and `WindowOf` are
  an independent reference: a partition of the sorted hours into maximal
  contiguous runs, each aggregated on its own. `MergeMatchesRuns` proves the
  two agree on every input, and the window properties are proved from the
  reference.
 */
module Windows {
  import opened Models
  import opened Numeric
  import opened Scoring

  function Last<T>(s: seq<T>): T
    requires |s| > 0
  {
    s[|s| - 1]
  }

  // ---------------------------------------------------------------------------
  // Ordering by timestamp
  // ---------------------------------------------------------------------------

  predicate SortedByTime(s: seq<HourScore>)
  {
    forall i, j :: 0 <= i < j < |s| ==> s[i].timestamp <= s[j].timestamp
  }

  predicate StrictlyIncreasing(s: seq<HourScore>)
  {
    forall i, j :: 0 <= i < j < |s| ==> s[i].timestamp < s[j].timestamp
  }

  /** No two hours share a timestamp (the cache's (location, timestamp) uniqueness). */
  predicate DistinctTimes(s: seq<HourScore>)
  {
    forall i, j :: 0 <= i < j < |s| ==> s[i].timestamp != s[j].timestamp
  }

  /** Putting an hour no later than a sorted list's first hour in front keeps it sorted. */
  lemma ConsSorted(x: HourScore, s: seq<HourScore>)
    requires SortedByTime(s)
    requires |s| > 0 ==> x.timestamp <= s[0].timestamp
    ensures SortedByTime([x] + s)
  {
    var r := [x] + s;
    forall i, j | 0 <= i < j < |r| ensures r[i].timestamp <= r[j].timestamp {
      if i == 0 {
        assert r[j] == s[j - 1];
      } else {
        assert r[i] == s[i - 1] && r[j] == s[j - 1];
      }
    }
  }

  /** Inserts `h` before the first hour that is not earlier than it. */
  function InsertByTime(h: HourScore, s: seq<HourScore>): (r: seq<HourScore>)
    requires SortedByTime(s)
    ensures |r| == |s| + 1
    ensures SortedByTime(r)
    ensures multiset(r) == multiset(s) + multiset{h}
    ensures r[0] == h || (|s| > 0 && r[0] == s[0])
    decreases |s|
  {
    if |s| == 0 then [h]
    else if h.timestamp <= s[0].timestamp then
      ConsSorted(h, s);
      [h] + s
    else
      var rest := InsertByTime(h, s[1..]);
      assert s == [s[0]] + s[1..];
      assert |s| > 1 ==> s[0].timestamp <= s[1].timestamp;
      ConsSorted(s[0], rest);
      [s[0]] + rest
  }

  /** `sorted(good_hours, key=timestamp)`: a stable insertion sort. */
  function SortByTime(s: seq<HourScore>): (r: seq<HourScore>)
    ensures |r| == |s|
    ensures SortedByTime(r)
    ensures multiset(r) == multiset(s)
  {
    if |s| == 0 then []
    else
      assert s == [s[0]] + s[1..];
      InsertByTime(s[0], SortByTime(s[1..]))
  }

  /** Sorting hours that are already in strictly increasing order changes nothing. */
  lemma {:induction false} SortKeepsIncreasing(s: seq<HourScore>)
    requires StrictlyIncreasing(s)
    ensures SortByTime(s) == s
  {
    if |s| > 0 {
      var tail := s[1..];
      assert StrictlyIncreasing(tail) by {
        forall i, j | 0 <= i < j < |tail| ensures tail[i].timestamp < tail[j].timestamp {
          assert tail[i] == s[i + 1] && tail[j] == s[j + 1];
        }
      }
      SortKeepsIncreasing(tail);
      assert s == [s[0]] + tail;
    }
  }

  lemma {:induction false} InsertKeepsStrict(h: HourScore, s: seq<HourScore>)
    requires StrictlyIncreasing(s)
    requires forall i :: 0 <= i < |s| ==> s[i].timestamp != h.timestamp
    ensures StrictlyIncreasing(InsertByTime(h, s))
    decreases |s|
  {
    if |s| > 0 && h.timestamp > s[0].timestamp {
      InsertKeepsStrict(h, s[1..]);
      var rest := InsertByTime(h, s[1..]);
      assert s[0].timestamp < rest[0].timestamp;
      assert forall j :: 0 <= j < |rest| ==> s[0].timestamp < rest[j].timestamp;
    }
  }

  /** Sorting hours with distinct timestamps puts them in strictly increasing order. */
  lemma {:induction false} SortStrict(s: seq<HourScore>)
    requires DistinctTimes(s)
    ensures StrictlyIncreasing(SortByTime(s))
  {
    if |s| > 0 {
      var tail := s[1..];
      assert DistinctTimes(tail) by {
        forall i, j | 0 <= i < j < |tail| ensures tail[i].timestamp != tail[j].timestamp {
          assert tail[i] == s[i + 1] && tail[j] == s[j + 1];
        }
      }
      SortStrict(tail);
      var t := SortByTime(tail);
      forall i | 0 <= i < |t| ensures t[i].timestamp != s[0].timestamp {
        assert t[i] in multiset(tail);
        var k :| 0 <= k < |tail| && tail[k] == t[i];
        assert tail[k] == s[k + 1];
      }
      InsertKeepsStrict(s[0], t);
    }
  }

  // ---------------------------------------------------------------------------
  // The source's loop: an open run kept as accumulators
  // ---------------------------------------------------------------------------

  /** The loop state between two hours: `cur_start`, `cur_end`, the lists, `max_alt`, `dark_flag`. */
  datatype OpenRun = OpenRun(start: int, end: int, scores: seq<real>, clouds: seq<int>,
                             moonIlls: seq<real>, maxAlt: real, dark: bool)
  {
    predicate Valid()
    {
      |scores| > 0 && |clouds| > 0 && |moonIlls| > 0
    }
  }

  function StartRun(h: HourScore): OpenRun
  {
    OpenRun(h.timestamp, h.timestamp, [h.score], [h.cloudCover], [h.moonIllumination], h.targetAlt, h.isDark)
  }

  function ExtendRun(r: OpenRun, h: HourScore): OpenRun
  {
    OpenRun(r.start, h.timestamp, r.scores + [h.score], r.clouds + [h.cloudCover],
            r.moonIlls + [h.moonIllumination], Max(r.maxAlt, h.targetAlt), r.dark || h.isDark)
  }

  /** Closes a run into an `AstroWindow`; the end is one hour past the last hour. */
  function CloseRun(r: OpenRun): Window
    requires r.Valid()
  {
    Window(r.start, r.end + 1, Mean(r.scores), RoundHalfEven(MeanInt(r.clouds)),
           Mean(r.moonIlls), r.maxAlt, r.dark)
  }

  /** The loop over the remaining sorted hours, from an open run. */
  function MergeSorted(r: OpenRun, rest: seq<HourScore>): (ws: seq<Window>)
    requires r.Valid()
    ensures |ws| > 0
    decreases |rest|
  {
    if |rest| == 0 then [CloseRun(r)]
    else if rest[0].timestamp == r.end + 1 then MergeSorted(ExtendRun(r, rest[0]), rest[1..])
    else [CloseRun(r)] + MergeSorted(StartRun(rest[0]), rest[1..])
  }

  /** `_merge_to_windows`: sort the good hours and glue consecutive ones into windows. */
  function MergeToWindows(good: seq<HourScore>): (ws: seq<Window>)
    ensures |good| == 0 ==> ws == []
    ensures |good| == 1 ==>
              ws == [Window(good[0].timestamp, good[0].timestamp + 1, good[0].score, good[0].cloudCover,
                            good[0].moonIllumination, good[0].targetAlt, good[0].isDark)]
  {
    if |good| == 0 then []
    else
      var s := SortByTime(good);
      assert |good| == 1 ==> MergeSorted(StartRun(s[0]), s[1..]) == [CloseRun(StartRun(good[0]))] by {
        if |good| == 1 {
          assert multiset(s) == multiset{good[0]};
          assert s[0] in multiset(s);
          assert s[1..] == [];
        }
      }
      assert |good| == 1 ==> CloseRun(StartRun(good[0])).score == good[0].score by {
        MeanOfOne(good[0].score);
      }
      assert |good| == 1 ==> CloseRun(StartRun(good[0])).moonIllumination == good[0].moonIllumination by {
        MeanOfOne(good[0].moonIllumination);
      }
      assert |good| == 1 ==> CloseRun(StartRun(good[0])).avgCloudCover == good[0].cloudCover by {
        MeanIntOfOne(good[0].cloudCover);
      }
      MergeSorted(StartRun(s[0]), s[1..])
  }

  // ---------------------------------------------------------------------------
  // Reference: maximal contiguous runs, aggregated one by one
  // ---------------------------------------------------------------------------

  /** Hour `j` of the run is exactly `j` hours after its first hour. */
  predicate Contiguous(run: seq<HourScore>)
  {
    forall j :: 0 <= j < |run| ==> run[j].timestamp == run[0].timestamp + j
  }

  predicate NonEmptyRuns(rs: seq<seq<HourScore>>)
  {
    forall k :: 0 <= k < |rs| ==> |rs[k]| > 0
  }

  function Flatten(rs: seq<seq<HourScore>>): seq<HourScore>
  {
    if |rs| == 0 then [] else rs[0] + Flatten(rs[1..])
  }

  /** Puts `cur` in front of `runs`, joining it to the first run when that run starts right after it. */
  function Prepend(cur: seq<HourScore>, runs: seq<seq<HourScore>>): (rs: seq<seq<HourScore>>)
    requires |cur| > 0
    requires NonEmptyRuns(runs)
    ensures NonEmptyRuns(rs)
    ensures |rs| > 0 && rs[0][0] == cur[0]
  {
    if |runs| > 0 && runs[0][0].timestamp == Last(cur).timestamp + 1 then [cur + runs[0]] + runs[1..]
    else [cur] + runs
  }

  /** The maximal runs of hours one hour apart, in order of the input. */
  function Runs(s: seq<HourScore>): (rs: seq<seq<HourScore>>)
    ensures NonEmptyRuns(rs)
    ensures |rs| == 0 <==> |s| == 0
    ensures |s| > 0 ==> rs[0][0] == s[0]
    decreases |s|
  {
    if |s| == 0 then [] else Prepend([s[0]], Runs(s[1..]))
  }

  function Scores(run: seq<HourScore>): (xs: seq<real>)
    ensures |xs| == |run|
  {
    seq(|run|, i requires 0 <= i < |run| => run[i].score)
  }

  function Clouds(run: seq<HourScore>): (xs: seq<int>)
    ensures |xs| == |run|
  {
    seq(|run|, i requires 0 <= i < |run| => run[i].cloudCover)
  }

  function MoonIlls(run: seq<HourScore>): (xs: seq<real>)
    ensures |xs| == |run|
  {
    seq(|run|, i requires 0 <= i < |run| => run[i].moonIllumination)
  }

  /** The highest target altitude of a run, folded from its first hour as the source does. */
  function MaxAlt(run: seq<HourScore>): (m: real)
    requires |run| > 0
    ensures forall i :: 0 <= i < |run| ==> run[i].targetAlt <= m
    ensures exists i :: 0 <= i < |run| && run[i].targetAlt == m
  {
    if |run| == 1 then run[0].targetAlt
    else
      var prefix := run[..|run| - 1];
      var m := MaxAlt(prefix);
      assert forall i :: 0 <= i < |prefix| ==> prefix[i] == run[i];
      Max(m, Last(run).targetAlt)
  }

  /** The OR of the darkness flags of a run. */
  function AnyDark(run: seq<HourScore>): (d: bool)
    ensures d <==> exists i :: 0 <= i < |run| && run[i].isDark
  {
    if |run| == 0 then false
    else
      var prefix := run[..|run| - 1];
      assert forall i :: 0 <= i < |prefix| ==> prefix[i] == run[i];
      AnyDark(prefix) || Last(run).isDark
  }

  /** The accumulators the source holds for a run made of exactly these hours. */
  function Summarize(run: seq<HourScore>): (r: OpenRun)
    requires |run| > 0
    ensures r.Valid()
  {
    OpenRun(run[0].timestamp, Last(run).timestamp, Scores(run), Clouds(run), MoonIlls(run),
            MaxAlt(run), AnyDark(run))
  }

  /** The window aggregated from one run. */
  function WindowOf(run: seq<HourScore>): Window
    requires |run| > 0
  {
    CloseRun(Summarize(run))
  }

  function WindowsOf(rs: seq<seq<HourScore>>): (ws: seq<Window>)
    requires NonEmptyRuns(rs)
    ensures |ws| == |rs|
    ensures forall k :: 0 <= k < |rs| ==> ws[k] == WindowOf(rs[k])
  {
    seq(|rs|, k requires 0 <= k < |rs| => WindowOf(rs[k]))
  }

  // ---------------------------------------------------------------------------
  // The loop computes the reference
  // ---------------------------------------------------------------------------

  lemma ExtendSummarize(cur: seq<HourScore>, h: HourScore)
    requires |cur| > 0
    ensures ExtendRun(Summarize(cur), h) == Summarize(cur + [h])
  {
    var c := cur + [h];
    assert c[..|c| - 1] == cur;
    assert Scores(c) == Scores(cur) + [h.score];
    assert Clouds(c) == Clouds(cur) + [h.cloudCover];
    assert MoonIlls(c) == MoonIlls(cur) + [h.moonIllumination];
  }

  /** Joining `h` to `cur` first, or to the following runs first, gives the same runs. */
  lemma PrependJoin(cur: seq<HourScore>, h: HourScore, rs: seq<seq<HourScore>>)
    requires |cur| > 0 && NonEmptyRuns(rs)
    requires h.timestamp == Last(cur).timestamp + 1
    ensures Prepend(cur + [h], rs) == Prepend(cur, Prepend([h], rs))
  {
    var c := cur + [h];
    assert Last(c) == h;
    if |rs| > 0 && rs[0][0].timestamp == h.timestamp + 1 {
      var p := [[h] + rs[0]] + rs[1..];
      assert Prepend([h], rs) == p;
      assert p[0] == [h] + rs[0] && p[1..] == rs[1..];
      assert c + rs[0] == cur + p[0];
    } else {
      var p := [[h]] + rs;
      assert Prepend([h], rs) == p;
      assert p[0] == [h] && p[1..] == rs;
    }
  }

  lemma SummarizeOne(h: HourScore)
    ensures Summarize([h]) == StartRun(h)
  {
    assert Scores([h]) == [h.score];
    assert Clouds([h]) == [h.cloudCover];
    assert MoonIlls([h]) == [h.moonIllumination];
  }

  lemma PrependAbsorbs(cur: seq<HourScore>, rest: seq<HourScore>)
    requires |cur| > 0 && |rest| > 0
    requires rest[0].timestamp == Last(cur).timestamp + 1
    ensures Prepend(cur + [rest[0]], Runs(rest[1..])) == Prepend(cur, Runs(rest))
  {
    PrependJoin(cur, rest[0], Runs(rest[1..]));
  }

  /** A next hour one hour after the open run extends it, in the loop and in the reference alike. */
  lemma MergeStepExtend(cur: seq<HourScore>, rest: seq<HourScore>)
    requires |cur| > 0 && |rest| > 0
    requires rest[0].timestamp == Last(cur).timestamp + 1
    ensures MergeSorted(Summarize(cur), rest) == MergeSorted(Summarize(cur + [rest[0]]), rest[1..])
    ensures Prepend(cur, Runs(rest)) == Prepend(cur + [rest[0]], Runs(rest[1..]))
  {
    ExtendSummarize(cur, rest[0]);
    PrependAbsorbs(cur, rest);
  }

  lemma WindowsOfCons(run: seq<HourScore>, rs: seq<seq<HourScore>>)
    requires |run| > 0 && NonEmptyRuns(rs)
    ensures WindowsOf([run] + rs) == [WindowOf(run)] + WindowsOf(rs)
  {
  }

  lemma {:induction false} MergeSortedMatchesRuns(cur: seq<HourScore>, rest: seq<HourScore>)
    requires |cur| > 0
    ensures MergeSorted(Summarize(cur), rest) == WindowsOf(Prepend(cur, Runs(rest)))
    decreases |rest|
  {
    if |rest| == 0 {
      assert Prepend(cur, Runs(rest)) == [cur];
    } else if rest[0].timestamp == Last(cur).timestamp + 1 {
      MergeStepExtend(cur, rest);
      MergeSortedMatchesRuns(cur + [rest[0]], rest[1..]);
    } else {
      var h := rest[0];
      SummarizeOne(h);
      MergeSortedMatchesRuns([h], rest[1..]);
      assert Runs(rest) == Prepend([h], Runs(rest[1..]));
      assert Prepend(cur, Runs(rest)) == [cur] + Runs(rest);
      WindowsOfCons(cur, Runs(rest));
    }
  }

  /** The source's loop produces exactly one aggregated window per maximal run of the sorted hours. */
  lemma MergeMatchesRuns(good: seq<HourScore>)
    ensures MergeToWindows(good) == WindowsOf(Runs(SortByTime(good)))
  {
    if |good| > 0 {
      var s := SortByTime(good);
      SummarizeOne(s[0]);
      MergeSortedMatchesRuns([s[0]], s[1..]);
      assert Runs(s) == Prepend([s[0]], Runs(s[1..]));
    }
  }

  // ---------------------------------------------------------------------------
  // Properties of the reference grouping
  // ---------------------------------------------------------------------------

  /** The runs, laid end to end, are the input itself: nothing lost, nothing reordered. */
  lemma {:induction false} RunsFlatten(s: seq<HourScore>)
    ensures Flatten(Runs(s)) == s
    decreases |s|
  {
    if |s| > 0 {
      var h := s[0];
      var r: seq<seq<HourScore>> := Runs(s[1..]);
      RunsFlatten(s[1..]);
      assert s == [h] + s[1..];
      assert Flatten(r) == s[1..];
      if |r| > 0 && r[0][0].timestamp == h.timestamp + 1 {
        var rs: seq<seq<HourScore>> := [[h] + r[0]] + r[1..];
        assert Runs(s) == rs;
        assert rs[1..] == r[1..];
        assert Flatten(rs) == ([h] + r[0]) + Flatten(r[1..]);
        assert Flatten(r) == r[0] + Flatten(r[1..]);
      } else {
        var rs: seq<seq<HourScore>> := [[h]] + r;
        assert Runs(s) == rs;
        assert rs[1..] == r;
        assert Flatten(rs) == [h] + Flatten(r);
      }
    }
  }

  /** Inside a run, each hour is exactly one hour after the previous one. */
  lemma {:induction false} RunsContiguous(s: seq<HourScore>)
    ensures forall k :: 0 <= k < |Runs(s)| ==> Contiguous(Runs(s)[k])
    decreases |s|
  {
    if |s| > 0 {
      var h := s[0];
      var r: seq<seq<HourScore>> := Runs(s[1..]);
      RunsContiguous(s[1..]);
      if |r| > 0 && r[0][0].timestamp == h.timestamp + 1 {
        var rs: seq<seq<HourScore>> := [[h] + r[0]] + r[1..];
        assert Runs(s) == rs;
        var run := rs[0];
        assert Contiguous(r[0]);
        forall j | 0 <= j < |run| ensures run[j].timestamp == run[0].timestamp + j {
          if j > 0 {
            assert run[j] == r[0][j - 1];
          }
        }
        assert forall k :: 1 <= k < |rs| ==> rs[k] == r[k];
      } else {
        var rs: seq<seq<HourScore>> := [[h]] + r;
        assert Runs(s) == rs;
        assert forall k :: 1 <= k < |rs| ==> rs[k] == r[k - 1];
      }
    }
  }

  /** Two neighbouring runs never continue each other: the runs are maximal. */
  lemma {:induction false} RunsMaximal(s: seq<HourScore>)
    ensures forall k :: 0 <= k < |Runs(s)| - 1 ==>
              Runs(s)[k + 1][0].timestamp != Last(Runs(s)[k]).timestamp + 1
    decreases |s|
  {
    if |s| > 0 {
      var h := s[0];
      var r: seq<seq<HourScore>> := Runs(s[1..]);
      RunsMaximal(s[1..]);
      if |r| > 0 && r[0][0].timestamp == h.timestamp + 1 {
        var rs: seq<seq<HourScore>> := [[h] + r[0]] + r[1..];
        assert Runs(s) == rs;
        assert Last(rs[0]) == Last(r[0]);
        assert forall k :: 1 <= k < |rs| ==> rs[k] == r[k];
      } else {
        var rs: seq<seq<HourScore>> := [[h]] + r;
        assert Runs(s) == rs;
        assert forall k :: 1 <= k < |rs| ==> rs[k] == r[k - 1];
      }
    }
  }

  /** Every hour of a run is in the flattened sequence, and every hour there is in some run. */
  lemma {:induction false} FlattenMembers(rs: seq<seq<HourScore>>)
    ensures forall k, j :: 0 <= k < |rs| && 0 <= j < |rs[k]| ==> rs[k][j] in Flatten(rs)
    ensures forall x :: x in Flatten(rs) ==> exists k, j :: 0 <= k < |rs| && 0 <= j < |rs[k]| && rs[k][j] == x
  {
    if |rs| > 0 {
      FlattenMembers(rs[1..]);
      assert Flatten(rs) == rs[0] + Flatten(rs[1..]);
      forall k, j | 0 <= k < |rs| && 0 <= j < |rs[k]| ensures rs[k][j] in Flatten(rs) {
        if k > 0 {
          assert rs[k] == rs[1..][k - 1];
        }
      }
      forall x | x in Flatten(rs)
        ensures exists k, j :: 0 <= k < |rs| && 0 <= j < |rs[k]| && rs[k][j] == x
      {
        if x in rs[0] {
          var j :| 0 <= j < |rs[0]| && rs[0][j] == x;
        } else {
          assert x in Flatten(rs[1..]);
          var k, j :| 0 <= k < |rs[1..]| && 0 <= j < |rs[1..][k]| && rs[1..][k][j] == x;
          assert rs[k + 1][j] == x;
        }
      }
    }
  }

  /** The hours of the runs are exactly the hours of the input. */
  lemma RunsMembers(s: seq<HourScore>)
    ensures forall k, j :: 0 <= k < |Runs(s)| && 0 <= j < |Runs(s)[k]| ==> Runs(s)[k][j] in s
    ensures forall x :: x in s ==>
              exists k, j :: 0 <= k < |Runs(s)| && 0 <= j < |Runs(s)[k]| && Runs(s)[k][j] == x
  {
    RunsFlatten(s);
    FlattenMembers(Runs(s));
  }

  /** In a strictly increasing input, any later run starts more than one hour after an earlier run ends. */
  lemma {:induction false} RunsSeparated(s: seq<HourScore>)
    requires StrictlyIncreasing(s)
    ensures forall k1, k2 :: 0 <= k1 < k2 < |Runs(s)| ==>
              Last(Runs(s)[k1]).timestamp + 1 < Runs(s)[k2][0].timestamp
    decreases |s|
  {
    if |s| > 0 {
      var h := s[0];
      var tail := s[1..];
      var r: seq<seq<HourScore>> := Runs(tail);
      assert StrictlyIncreasing(tail) by {
        forall i, j | 0 <= i < j < |tail| ensures tail[i].timestamp < tail[j].timestamp {
          assert tail[i] == s[i + 1] && tail[j] == s[j + 1];
        }
      }
      RunsSeparated(tail);
      if |r| > 0 && r[0][0].timestamp == h.timestamp + 1 {
        var rs: seq<seq<HourScore>> := [[h] + r[0]] + r[1..];
        assert Runs(s) == rs;
        assert Last(rs[0]) == Last(r[0]);
        assert forall k :: 1 <= k < |rs| ==> rs[k] == r[k];
      } else {
        var rs: seq<seq<HourScore>> := [[h]] + r;
        assert Runs(s) == rs;
        assert forall k :: 1 <= k < |rs| ==> rs[k] == r[k - 1];
        if |r| > 0 {
          assert r[0][0] == s[1];
          assert h.timestamp + 1 < r[0][0].timestamp;
          RunsContiguous(tail);
          assert Contiguous(r[0]);
          assert Last(r[0]).timestamp >= r[0][0].timestamp;
          forall k2 | 1 <= k2 < |rs| ensures Last(rs[0]).timestamp + 1 < rs[k2][0].timestamp {
            if k2 > 1 {
              assert Last(r[0]).timestamp + 1 < r[k2 - 1][0].timestamp;
            }
          }
        }
      }
    }
  }

  // ---------------------------------------------------------------------------
  // Properties of one aggregated window
  // ---------------------------------------------------------------------------

  /** Hour `t` lies in the window's half-open span `[start, end)`. */
  predicate Covers(w: Window, t: int)
  {
    w.start <= t < w.end
  }

  /** A contiguous run's window spans exactly the run's hours. */
  lemma ContiguousWindowSpan(run: seq<HourScore>)
    requires |run| > 0 && Contiguous(run)
    ensures WindowOf(run).start == run[0].timestamp
    ensures WindowOf(run).end == run[0].timestamp + |run|
    ensures forall t :: Covers(WindowOf(run), t) <==> exists j :: 0 <= j < |run| && run[j].timestamp == t
  {
    assert Last(run).timestamp == run[0].timestamp + |run| - 1;
    forall t | Covers(WindowOf(run), t) ensures exists j :: 0 <= j < |run| && run[j].timestamp == t {
      var j := t - run[0].timestamp;
      assert run[j].timestamp == t;
    }
  }

  /** A window's score is the mean of its run's scores, so it lies between two of them. */
  lemma WindowScoreBetween(run: seq<HourScore>) returns (lo: int, hi: int)
    requires |run| > 0
    ensures WindowOf(run).score == Mean(Scores(run))
    ensures 0 <= lo < |run| && 0 <= hi < |run|
    ensures run[lo].score <= WindowOf(run).score <= run[hi].score
  {
    MeanBetweenElements(Scores(run));
    lo, hi := ArgMin(Scores(run)), ArgMax(Scores(run));
  }

  /** A window's moon illumination is the mean of its run's, so it lies between two of them. */
  lemma WindowMoonBetween(run: seq<HourScore>) returns (lo: int, hi: int)
    requires |run| > 0
    ensures WindowOf(run).moonIllumination == Mean(MoonIlls(run))
    ensures 0 <= lo < |run| && 0 <= hi < |run|
    ensures run[lo].moonIllumination <= WindowOf(run).moonIllumination <= run[hi].moonIllumination
  {
    MeanBetweenElements(MoonIlls(run));
    lo, hi := ArgMin(MoonIlls(run)), ArgMax(MoonIlls(run));
  }

  /** A window's cloud cover is the rounded mean of its run's, so it lies between two of them. */
  lemma WindowCloudBetween(run: seq<HourScore>) returns (lo: int, hi: int)
    requires |run| > 0
    ensures WindowOf(run).avgCloudCover == RoundHalfEven(MeanInt(Clouds(run)))
    ensures 0 <= lo < |run| && 0 <= hi < |run|
    ensures run[lo].cloudCover <= WindowOf(run).avgCloudCover <= run[hi].cloudCover
  {
    var cs := ToReals(Clouds(run));
    MeanBetweenElements(cs);
    lo, hi := ArgMin(cs), ArgMax(cs);
    RoundWithin(MeanInt(Clouds(run)), run[lo].cloudCover, run[hi].cloudCover);
  }

  // ---------------------------------------------------------------------------
  // Windows of a strictly increasing sequence of hours
  // ---------------------------------------------------------------------------

  /** A run's window starts at its first hour and ends one hour after its last. */
  lemma WindowOfSpan(run: seq<HourScore>)
    requires |run| > 0
    ensures WindowOf(run).start == run[0].timestamp
    ensures WindowOf(run).end == Last(run).timestamp + 1
  {
  }

  lemma RunContiguousAt(s: seq<HourScore>, k: int)
    requires 0 <= k < |Runs(s)|
    ensures Contiguous(Runs(s)[k])
    ensures Last(Runs(s)[k]).timestamp == Runs(s)[k][0].timestamp + |Runs(s)[k]| - 1
  {
    RunsContiguous(s);
  }

  lemma RunsSeparatedAt(s: seq<HourScore>, k1: int, k2: int)
    requires StrictlyIncreasing(s)
    requires 0 <= k1 < k2 < |Runs(s)|
    ensures Last(Runs(s)[k1]).timestamp + 1 < Runs(s)[k2][0].timestamp
  {
    RunsSeparated(s);
  }

  lemma RunOfHour(s: seq<HourScore>, h: HourScore) returns (k: int, j: int)
    requires h in s
    ensures 0 <= k < |Runs(s)| && 0 <= j < |Runs(s)[k]| && Runs(s)[k][j] == h
  {
    RunsMembers(s);
    k, j :| 0 <= k < |Runs(s)| && 0 <= j < |Runs(s)[k]| && Runs(s)[k][j] == h;
  }

  /** For an hour of the input: run `k`'s window covers it exactly when it belongs to run `k`. */
  lemma RunWindowMembers(s: seq<HourScore>, k: int, h: HourScore)
    requires StrictlyIncreasing(s)
    requires 0 <= k < |Runs(s)|
    requires h in s
    ensures Covers(WindowOf(Runs(s)[k]), h.timestamp) <==> h in Runs(s)[k]
  {
    var run := Runs(s)[k];
    RunContiguousAt(s, k);
    WindowOfSpan(run);
    if h in run {
      var j :| 0 <= j < |run| && run[j] == h;
      assert h.timestamp == run[0].timestamp + j;
    } else if Covers(WindowOf(run), h.timestamp) {
      var k', j := RunOfHour(s, h);
      var other := Runs(s)[k'];
      RunContiguousAt(s, k');
      assert h.timestamp == other[0].timestamp + j;
      if k' < k {
        RunsSeparatedAt(s, k', k);
      } else {
        RunsSeparatedAt(s, k, k');
      }
      assert false;
    }
  }

  // ---------------------------------------------------------------------------
  // Properties of the merge, for good hours with distinct timestamps
  // ---------------------------------------------------------------------------

  /** The merge sees the good hours in strictly increasing time order, grouped by `Runs`. */
  lemma MergeStructure(good: seq<HourScore>)
    requires DistinctTimes(good)
    ensures StrictlyIncreasing(SortByTime(good))
    ensures MergeToWindows(good) == WindowsOf(Runs(SortByTime(good)))
    ensures forall h :: h in good <==> h in SortByTime(good)
  {
    SortStrict(good);
    MergeMatchesRuns(good);
    var s := SortByTime(good);
    forall h ensures h in good <==> h in s {
      assert h in good <==> h in multiset(good);
      assert h in s <==> h in multiset(s);
    }
  }

  /** Windows come out in time order, each non-empty, with at least one hour between neighbours. */
  lemma MergeWindowsOrdered(good: seq<HourScore>)
    requires DistinctTimes(good)
    ensures forall k :: 0 <= k < |MergeToWindows(good)| ==>
              MergeToWindows(good)[k].start < MergeToWindows(good)[k].end
    ensures forall k1, k2 :: 0 <= k1 < k2 < |MergeToWindows(good)| ==>
              MergeToWindows(good)[k1].end < MergeToWindows(good)[k2].start
  {
    MergeStructure(good);
    var s := SortByTime(good);
    var rs: seq<seq<HourScore>> := Runs(s);
    RunsContiguous(s);
    RunsSeparated(s);
    forall k | 0 <= k < |rs| ensures WindowOf(rs[k]).start < WindowOf(rs[k]).end {
      ContiguousWindowSpan(rs[k]);
    }
  }

  /** Every good hour lies in exactly one window. */
  lemma MergeWindowsCover(good: seq<HourScore>)
    requires DistinctTimes(good)
    ensures forall h :: h in good ==>
              exists k :: 0 <= k < |MergeToWindows(good)| && Covers(MergeToWindows(good)[k], h.timestamp)
    ensures forall h, k1, k2 :: h in good && 0 <= k1 < |MergeToWindows(good)| && 0 <= k2 < |MergeToWindows(good)|
              && Covers(MergeToWindows(good)[k1], h.timestamp) && Covers(MergeToWindows(good)[k2], h.timestamp)
              ==> k1 == k2
  {
    MergeStructure(good);
    MergeWindowsOrdered(good);
    var s := SortByTime(good);
    var rs: seq<seq<HourScore>> := Runs(s);
    var ws := MergeToWindows(good);
    RunsMembers(s);
    forall h | h in good ensures exists k :: 0 <= k < |ws| && Covers(ws[k], h.timestamp) {
      var k, j :| 0 <= k < |rs| && 0 <= j < |rs[k]| && rs[k][j] == h;
      RunWindowMembers(s, k, h);
    }
  }

  /** Every hour a window spans is a good hour: windows never bridge a gap. */
  lemma MergeWindowsHoldOnlyGoodHours(good: seq<HourScore>)
    requires DistinctTimes(good)
    ensures forall k, t :: 0 <= k < |MergeToWindows(good)| && Covers(MergeToWindows(good)[k], t) ==>
              exists h :: h in good && h.timestamp == t
  {
    MergeStructure(good);
    var s := SortByTime(good);
    var rs: seq<seq<HourScore>> := Runs(s);
    var ws := MergeToWindows(good);
    RunsMembers(s);
    forall k, t | 0 <= k < |ws| && Covers(ws[k], t) ensures exists h :: h in good && h.timestamp == t {
      RunContiguousAt(s, k);
      ContiguousWindowSpan(rs[k]);
      var j :| 0 <= j < |rs[k]| && rs[k][j].timestamp == t;
      assert rs[k][j] in s;
    }
  }

  /** No good hour sits right before or right after a window: the windows are maximal. */
  lemma MergeWindowsMaximal(good: seq<HourScore>)
    requires DistinctTimes(good)
    ensures forall k, h :: 0 <= k < |MergeToWindows(good)| && h in good ==>
              h.timestamp != MergeToWindows(good)[k].end && h.timestamp != MergeToWindows(good)[k].start - 1
  {
    MergeWindowsCover(good);
    MergeWindowsOrdered(good);
    var ws := MergeToWindows(good);
    forall k, h | 0 <= k < |ws| && h in good
      ensures h.timestamp != ws[k].end && h.timestamp != ws[k].start - 1
    {
      var k' :| 0 <= k' < |ws| && Covers(ws[k'], h.timestamp);
    }
  }

  /** Run `k`'s window holds exactly the hours of run `k`. */
  lemma RunWindowHours(s: seq<HourScore>, k: int)
    requires StrictlyIncreasing(s)
    requires 0 <= k < |Runs(s)|
    ensures forall j :: 0 <= j < |Runs(s)[k]| ==>
              Runs(s)[k][j] in s && Covers(WindowOf(Runs(s)[k]), Runs(s)[k][j].timestamp)
    ensures forall h :: h in s && Covers(WindowOf(Runs(s)[k]), h.timestamp) ==> h in Runs(s)[k]
  {
    var run := Runs(s)[k];
    RunsMembers(s);
    forall j | 0 <= j < |run| ensures run[j] in s && Covers(WindowOf(run), run[j].timestamp) {
      RunWindowMembers(s, k, run[j]);
    }
    forall h | h in s && Covers(WindowOf(run), h.timestamp) ensures h in run {
      RunWindowMembers(s, k, h);
    }
  }

  /** Window `k` of the merge is the aggregate of a run made of exactly the good hours it spans. */
  lemma MergeWindowRun(good: seq<HourScore>, k: int) returns (run: seq<HourScore>)
    requires DistinctTimes(good)
    requires 0 <= k < |MergeToWindows(good)|
    ensures |run| > 0
    ensures MergeToWindows(good)[k] == WindowOf(run)
    ensures forall j :: 0 <= j < |run| ==> run[j] in good && Covers(WindowOf(run), run[j].timestamp)
    ensures forall h :: h in good && Covers(WindowOf(run), h.timestamp) ==> h in run
    ensures Contiguous(run)
  {
    MergeStructure(good);
    var s := SortByTime(good);
    run := Runs(s)[k];
    RunWindowHours(s, k);
    RunContiguousAt(s, k);
  }

  /** A window's score is the mean of the good hours it spans, so it lies between two of theirs. */
  lemma MergeWindowScore(good: seq<HourScore>, k: int)
    requires DistinctTimes(good)
    requires 0 <= k < |MergeToWindows(good)|
    ensures exists h1, h2 :: h1 in good && h2 in good &&
              Covers(MergeToWindows(good)[k], h1.timestamp) && Covers(MergeToWindows(good)[k], h2.timestamp) &&
              h1.score <= MergeToWindows(good)[k].score <= h2.score
  {
    var run := MergeWindowRun(good, k);
    var i, j := WindowScoreBetween(run);
    assert run[i] in good && run[j] in good;
  }

  /** A window's cloud cover is the rounded mean of the good hours it spans, so it lies between two of theirs. */
  lemma MergeWindowCloudCover(good: seq<HourScore>, k: int)
    requires DistinctTimes(good)
    requires 0 <= k < |MergeToWindows(good)|
    ensures exists h1, h2 :: h1 in good && h2 in good &&
              Covers(MergeToWindows(good)[k], h1.timestamp) && Covers(MergeToWindows(good)[k], h2.timestamp) &&
              h1.cloudCover <= MergeToWindows(good)[k].avgCloudCover <= h2.cloudCover
  {
    var run := MergeWindowRun(good, k);
    var i, j := WindowCloudBetween(run);
    assert run[i] in good && run[j] in good;
  }

  /** A window's moon illumination is the mean of the good hours it spans, so it lies between two of theirs. */
  lemma MergeWindowMoon(good: seq<HourScore>, k: int)
    requires DistinctTimes(good)
    requires 0 <= k < |MergeToWindows(good)|
    ensures exists h1, h2 :: h1 in good && h2 in good &&
              Covers(MergeToWindows(good)[k], h1.timestamp) && Covers(MergeToWindows(good)[k], h2.timestamp) &&
              h1.moonIllumination <= MergeToWindows(good)[k].moonIllumination <= h2.moonIllumination
  {
    var run := MergeWindowRun(good, k);
    var i, j := WindowMoonBetween(run);
    assert run[i] in good && run[j] in good;
  }

  /** A window's maximum target altitude is the highest among the good hours it spans. */
  lemma MergeWindowMaxAltitude(good: seq<HourScore>, k: int)
    requires DistinctTimes(good)
    requires 0 <= k < |MergeToWindows(good)|
    ensures var w := MergeToWindows(good)[k];
      && (forall h :: h in good && Covers(w, h.timestamp) ==> h.targetAlt <= w.maxTargetAltitude)
      && (exists h :: h in good && Covers(w, h.timestamp) && h.targetAlt == w.maxTargetAltitude)
  {
    var run := MergeWindowRun(good, k);
    var w := WindowOf(run);
    assert w.maxTargetAltitude == MaxAlt(run);
    var i :| 0 <= i < |run| && run[i].targetAlt == w.maxTargetAltitude;
    assert run[i] in good;
    forall h | h in good && Covers(w, h.timestamp) ensures h.targetAlt <= w.maxTargetAltitude {
      var j :| 0 <= j < |run| && run[j] == h;
    }
  }

  /** A window is astronomically dark iff one of the good hours it spans is. */
  lemma MergeWindowDark(good: seq<HourScore>, k: int)
    requires DistinctTimes(good)
    requires 0 <= k < |MergeToWindows(good)|
    ensures MergeToWindows(good)[k].isAstronomicalDark <==>
              exists h :: h in good && Covers(MergeToWindows(good)[k], h.timestamp) && h.isDark
  {
    var run := MergeWindowRun(good, k);
    var w := WindowOf(run);
    assert w.isAstronomicalDark == AnyDark(run);
    if w.isAstronomicalDark {
      var i :| 0 <= i < |run| && run[i].isDark;
      assert run[i] in good;
    }
    if exists h :: h in good && Covers(w, h.timestamp) && h.isDark {
      var h :| h in good && Covers(w, h.timestamp) && h.isDark;
      var j :| 0 <= j < |run| && run[j] == h;
    }
  }

  /** A run followed by an hour that does not continue it closes into two windows. */
  lemma MergeCloseBeforeLast(r: OpenRun, c: HourScore)
    requires r.Valid()
    requires c.timestamp != r.end + 1
    ensures MergeSorted(r, [c]) == [CloseRun(r), CloseRun(StartRun(c))]
  {
    assert [c][1..] == [];
    assert MergeSorted(StartRun(c), []) == [CloseRun(StartRun(c))];
  }

  /** On hours already in time order, the merge is the loop started from the first hour. */
  lemma MergeOfIncreasing(s: seq<HourScore>)
    requires |s| > 0 && StrictlyIncreasing(s)
    ensures MergeToWindows(s) == MergeSorted(StartRun(s[0]), s[1..])
  {
    SortKeepsIncreasing(s);
  }

  /** The worked example: hours at t, t+1 and t+3 give the windows [t, t+2) and [t+3, t+4). */
  lemma MergeGapExample(a: HourScore, b: HourScore, c: HourScore, t: int)
    requires a.timestamp == t && b.timestamp == t + 1 && c.timestamp == t + 3
    ensures |MergeToWindows([a, b, c])| == 2
    ensures MergeToWindows([a, b, c])[0].start == t && MergeToWindows([a, b, c])[0].end == t + 2
    ensures MergeToWindows([a, b, c])[1].start == t + 3 && MergeToWindows([a, b, c])[1].end == t + 4
  {
    var s := [a, b, c];
    MergeOfIncreasing(s);
    assert s[1..] == [b, c];
    var r1 := ExtendRun(StartRun(a), b);
    assert MergeSorted(StartRun(a), [b, c]) == MergeSorted(r1, [c]) by {
      assert [b, c][1..] == [c];
    }
    MergeCloseBeforeLast(r1, c);
    var ws := [CloseRun(r1), CloseRun(StartRun(c))];
    assert MergeToWindows(s) == ws;
  }
}
